=== FILE: README.md ===
# Engagement logic of a vision-driven game bot, in Dafny

The bot reads frames of a game window. An object detector returns a list of
detections (class name, centre, score). From these the bot commits to one
target, moves the mouse onto it, and classifies the cursor shape it sees
there as a red sword (the target is alive), a hand (the target is dead and
holds loot), a prohibition sign (the target must not be touched) or nothing.
It then clicks, loots, or abandons the target. It remembers dead and
prohibited locations for a while so that it does not return to them. When
it has nothing to engage, it explores: it rotates the view, then either
steers away from a dark obstacle ahead or walks forward.

The model has five modules:

- `InputController` (`input_controller.dfy`) covers synthetic input.
  - The flag words of key and mouse events.
  - The clamp-and-scale of an absolute mouse move onto the 0..65535 range.
  - The class `Injector`. Each of its methods appends the records it would
    send to a `trace`.
- `CursorDetection` (`cursor_detection.dfy`) is the cursor-state
  classifier.
  - The search area around a point, with Python's slice semantics.
  - The decision rule over the colour detectors' readings.
  - `Counter.most_common` as a scan for the first index of maximal count.
  - The repeated-sampling confidence loop.
- `Obstacles` (`obstacles.dfy`) is the steering rule: the bottom ten rows of
  a frame cut into thirds, with their mean brightness compared as reals.
- `Bot` (`bot_thread.dfy`) holds the bot itself.
  - Zone records and their lazy expiry.
  - Re-binding to the nearest detection of the target's class.
  - First-match target selection.
  - The class `BotThread`, whose methods mutate the target, counters,
    tracking flag and zone lists exactly as the thread's methods do, and
    append their input to the injector's trace.
- `Wrappers` holds `Option`.

Perception is an oracle. A `Sensor` maps a pixel region to the readings
the colour detectors would report for it: a prohibition sign found or not,
a sword pixel count and a hand pixel count. During one engagement step the
`i`-th classification reads `capture(i)`, a fresh capture of the window.
The clock is an explicit `now` parameter, and the mouse position the
system reports is a parameter too.

`BotThread.Valid()` is the invariant the class keeps:

- cursor tracking is active only while a target is committed;
- a target is committed only while the bot is engaging.

The constructor establishes it, and `Iterate`, `EngageCurrent`,
`SelectOrExplore`, `AttackTarget`, `Pursue` and `Stop` preserve it. `Run`
preserves it over any finite run of loop iterations. The internal steps
(`Approach`, `Engage`, `ActOnVote`, `CommitTarget`, `ClearTarget`) state
only the fields they set.

Three facts about the code shape the model.

- `detect_cursor_state` uses only the colour detectors; no template is
  ever consulted.
- Two sword and hand counts that both exceed their thresholds resolve to
  the red sword exactly when `sword > 0.6 * hand`.
- The grace window for a target whose class has vanished is measured from
  the last attack, not from the moment the class vanished.

## Model

| member | source | states |
|---|---|---|
| InputController.KeyDownFlags | input_controller.py:44-47 | a key press carries the scan-code flag 0x0008 and not the key-up flag |
| InputController.KeyUpFlags | input_controller.py:50-53 | a key release carries scan-code and key-up together, 0x000A |
| InputController.AbsoluteMoveFlags | input_controller.py:73 | an absolute move carries MOVE and ABSOLUTE, 0x8001 |
| InputController.ButtonDownFlags | input_controller.py:56-59 | the press flag is LEFTDOWN exactly when the button is "left", otherwise RIGHTDOWN |
| InputController.ButtonUpFlags | input_controller.py:62-65 | the release flag is LEFTUP exactly when the button is "left", otherwise RIGHTUP |
| InputController.ClickEvents | input_controller.py:82-85 | a click is exactly a press followed by a release of the same button |
| InputController.Clamp | input_controller.py:69-70 | the clamped coordinate lies in [0, size-1], equals the input inside that range, and is the nearer bound outside it |
| InputController.Scale | input_controller.py:71-72 | the scaled coordinate lies in [0, 65535] and is the floor of c*65535/(size-1) |
| InputController.ToAbsolute | input_controller.py:69-72 | the absolute coordinate lies in [0, 65535]; inputs at or below 0 give 0 and inputs at or beyond size-1 give 65535 |
| InputController.ToAbsoluteMonotone | input_controller.py:69-72 | the absolute coordinate never decreases as the screen coordinate grows |
| InputController.MoveMouseEvent | input_controller.py:68-74 | `move_mouse` sends one absolute move with flags 0x8001 and both coordinates in range |
| InputController.Truncate | input_controller.py:95 | `int()` truncates toward zero on both signs |
| InputController.Interpolate | input_controller.py:92-95 | the first interpolated coordinate is the start, and every one from step 0 to `steps` lies between the start and the destination |
| InputController.InterpolateArrives | input_controller.py:92-95 | the last interpolated coordinate of a smooth move is the destination |
| InputController.SmoothMoveEvents | input_controller.py:88-96 | a smooth move is exactly `steps` absolute moves |
| InputController.SmoothMoveEndsAtTarget | input_controller.py:92-96 | the last move of a smooth move is the move `move_mouse(tx, ty)` sends |
| InputController.Injector.constructor | input_controller.py:20-21 | the injector starts with an empty trace and the given screen size |
| InputController.Injector.PressKey | input_controller.py:44-47 | appends one key-down record |
| InputController.Injector.ReleaseKey | input_controller.py:50-53 | appends one key-up record |
| InputController.Injector.PressMouse | input_controller.py:56-59 | appends one button-down record |
| InputController.Injector.ReleaseMouse | input_controller.py:62-65 | appends one button-up record |
| InputController.Injector.MoveMouse | input_controller.py:68-74 | appends the clamped and scaled absolute move |
| InputController.Injector.MoveMouseRel | input_controller.py:77-79 | appends one relative move with the MOVE flag only |
| InputController.Injector.ClickMouse | input_controller.py:82-85 | appends the press and release of the button, in that order |
| InputController.Injector.SmoothMove | input_controller.py:88-96 | the loop appends exactly the smooth-move records, one absolute move per step |
| CursorDetection.SliceIndex | cursor_detection/cursor_detection.py:37 | a slice bound counts from the end when negative and is clipped to [0, n] |
| CursorDetection.SearchArea | cursor_detection/cursor_detection.py:30-37 | the examined block always lies inside the frame |
| CursorDetection.SearchAreaInsideFrame | cursor_detection/cursor_detection.py:30-39 | for a point in the frame and a positive radius, the block is the clipped square, contains the point, and is never empty |
| CursorDetection.SearchAreaWrapsForOffFramePoint | cursor_detection/cursor_detection.py:33-37 | for any in-frame row and positive radius, a point more than the radius left of the frame gets columns `[0, tx+radius+w)` because the negative slice end wraps; the block is non-empty iff `tx+radius+w > 0` |
| CursorDetection.Decide | cursor_detection/cursor_detection.py:44-64 | prohibited iff the sign is present; NONE iff both counts are within their thresholds; RED_SWORD iff sword > 35 and (hand <= 25 or 5*sword > 3*hand); HAND iff hand > 25 and (sword <= 35 or 5*sword <= 3*hand) |
| CursorDetection.DetectCursorState | cursor_detection/cursor_detection.py:16-64 | an empty search area yields NONE; otherwise the label is the decision on that area's readings |
| CursorDetection.ClassifyInsideFrame | cursor_detection/cursor_detection.py:30-46 | for a point inside the frame, the label is decided on the clipped square, and a prohibition sign there wins over any pixel counts |
| CursorDetection.MostCommonIndex | cursor_detection/cursor_detection.py:83-84 | the chosen element has maximal count, and every earlier element has a strictly smaller count (Counter's first-seen tie-break) |
| CursorDetection.MostCommonOfThree | cursor_detection/cursor_detection.py:83-84 | of three labels, one seen twice wins, and when all differ the first wins |
| CursorDetection.MostCommonOfConstant | cursor_detection/cursor_detection.py:83-85 | when every sample is the same label, that label wins with all samples counted, so the agreeing fraction is 1 |
| CursorDetection.GetCursorConfidence | cursor_detection/cursor_detection.py:67-87 | returns its `num_samples` samples, each the frame's classification, with `num_samples-1` pauses; the state is `most_common` of the samples and the confidence is its count divided by `num_samples`, which is 1 since every sample reads the same frame |
| Obstacles.Mean | utils.py:37-39 | a strip mean is non-negative, and times the number of channel values it is the strip's channel sum |
| Obstacles.BottomStrip | utils.py:35 | the strip is the last ten rows of the frame, in order |
| Obstacles.DetectObstacleDirection | utils.py:29-43 | fewer than ten rows, or fewer than three columns (an empty middle strip, whose mean is NaN), yield None |
| Obstacles.DarkMiddleSteersToBrighterSide | utils.py:35-43 | with ten rows and three columns or more: left iff the middle third is below the threshold and the left third outweighs the right (sums cross-multiplied by widths); right iff the middle is dark and it does not, so ties go right; None iff the middle is not dark |
| Obstacles.MeanComparedBySums | utils.py:37-42 | comparing strip means is comparing channel sums cross-multiplied by strip widths |
| Obstacles.UniformFrameSteersRightWhenDark | utils.py:41-43 | a uniform frame darker than the threshold steers right (equal sides go right), and a brighter one yields None |
| Obstacles.OnlyBottomStripMatters | utils.py:31-43 | frames that agree on their bottom ten rows steer the same way |
| Bot.Unexpired | bot_thread.py:64-67 | purging keeps exactly the records younger than the window, and no more than there were |
| Bot.UnexpiredMultiplicity | bot_thread.py:64-67 | every live record is kept as often as it occurred; every expired one is dropped |
| Bot.UnexpiredAppend | bot_thread.py:64-67 | purging distributes over concatenation, so records keep their original order |
| Bot.UnexpiredIdempotent | bot_thread.py:62-67 | a second purge at the same instant changes nothing |
| Bot.RecordedZoneExpires | bot_thread.py:63-78 | an appended record covers its neighbourhood exactly while it is live |
| Bot.Near | bot_thread.py:70-76 | a record covers a point iff the point lies strictly inside the 100 by 60 px box centred on it |
| Bot.SameClass | bot_thread.py:275 | keeps exactly the detections of the target's class |
| Bot.SameClassAppend | bot_thread.py:275 | the filter keeps detector order: it distributes over concatenation and keeps a single detection iff it has the class |
| Bot.ClosestIndex | bot_thread.py:279-282 | the chosen detection has minimal squared distance, and every earlier one is strictly farther (`min`'s first-minimum rule) |
| Bot.Rebind | bot_thread.py:279-290 | the target moves only to a nearest same-class detection more than 5 px away; if any same-class detection lies within 5 px it stays put; if all lie farther it moves to the first nearest one in detector order |
| Bot.EligibleOnesMembers | bot_thread.py:317 | the comprehension keeps exactly the allowed-class detections outside every zone |
| Bot.FirstEligible | bot_thread.py:317-319 | a chosen detection is one of the detections and is eligible; when none is chosen, no detection is eligible |
| Bot.FirstEligibleIsFirst | bot_thread.py:317-319 | the selector picks an eligible detection with no eligible one before it, and picks none exactly when no detection is eligible |
| Bot.NoAllowedClassNoneEligible | bot_thread.py:317 | with no allowed-class detection nothing is selected, whatever the zones hold |
| Bot.ZoneBlocksSelection | bot_thread.py:70-78 | a remembered dead or prohibited zone keeps the selector off every detection near it |
| Bot.Sample | bot_thread.py:125-132 | a classification at a point inside the capture region is the decision on the readings of the 100 px square around it, clipped to the region |
| Bot.Vote | bot_thread.py:164-171 | the vote is one of the three samples; a label two samples share wins |
| Bot.VoteIsMostCommon | bot_thread.py:164-171 | the adopted state is `Counter(...).most_common(1)` of the three samples |
| Bot.MostCommonOfSamples | bot_thread.py:171 | `most_common` of three samples is one of them, and is their majority |
| Bot.Resolve | bot_thread.py:176-230 | the target is forbidden iff the vote (or, after a NONE vote, the re-sample) is PROHIBITED; looted iff it is HAND; otherwise it is alive |
| Bot.ClickCount | bot_thread.py:176-230 | PROHIBITED issues no click; only a NONE vote followed by a HAND re-sample issues two; every other case issues one |
| Bot.RotateCameraEvents | bot_thread.py:232-238 | a rotation is a right-button press, `steps` relative moves of `total_dx // steps` each, and a right-button release |
| Bot.RotationTravel | bot_thread.py:234-236 | a rotation travels `steps * (total_dx // steps)`, less than one step short of `total_dx` |
| Bot.SteerEvents | bot_thread.py:345-357 | no direction gives a W press then release; a direction gives a right-button press, a relative move of -200 px for left and +200 px for right, and a right-button release |
| Bot.AttackInCapture | bot_thread.py:152-230 | for a target inside the capture region, survival, the attack click, each zone record and the input sent are those the three-sample vote and the re-sample dictate |
| Bot.SurvivorWasAttacked | bot_thread.py:176-230 | a target reported alive was clicked (the attack counter and time advance) and left no zone record |
| Bot.BotThread.constructor | bot_thread.py:40-56 | no target, not engaging, counters zero, tracking off, both zone lists empty |
| Bot.BotThread.IsInDeadZone | bot_thread.py:62-78 | both lists are purged with their own windows (the dead timeout and 9 s), and the answer is true iff a kept record is strictly within 50 px horizontally and 30 px vertically |
| Bot.BotThread.Screen | bot_thread.py:317 | the zone query (and its purge) runs only for an allowed class; the detection is kept iff it is eligible |
| Bot.BotThread.SelectTarget | bot_thread.py:317-319 | the zones are purged iff some detection has an allowed class; the choice is the first eligible detection |
| Bot.BotThread.AttackTarget | bot_thread.py:134-230 | with no target, or a target outside the capture region: returns false and changes no field and no input; otherwise approaches, votes over three samples, and leaves zones, counters, tracking, trace and result as the verdict dictates |
| Bot.BotThread.Engage | bot_thread.py:152-230 | approach, vote and action for an in-bounds target: the exact new zone lists, counters, tracking flag and input trace |
| Bot.BotThread.Approach | bot_thread.py:155-161 | tracking is on, and the mouse glides to the target's screen position in five absolute moves |
| Bot.BotThread.SampleVote | bot_thread.py:164-171 | the three samples are the classifications of captures 0, 1 and 2, and the vote is their majority |
| Bot.BotThread.ActOnVote | bot_thread.py:176-230 | per branch: which zone gets one record, whether the attack counter and time advance, the clicks issued, the re-sample taken, and the result |
| Bot.BotThread.SmoothRotateCamera | bot_thread.py:232-238 | the loop emits exactly the rotation events |
| Bot.BotThread.ClearTarget | bot_thread.py:297-300 | dropping the target resets the counter and cursor state and stops tracking |
| Bot.BotThread.CommitTarget | bot_thread.py:319-323 | a new target starts with counter 0, tracking on, and the last attack back-dated so the delay has already elapsed |
| Bot.BotThread.Explore | bot_thread.py:341-357 | rotates, then steers or walks by the obstacle rule's verdict on the frame |
| Bot.BotThread.EngageCurrent | bot_thread.py:267-313 | throttles before the post-click delay; with the class present, attacks the re-bound target and keeps engaging iff the attack reports it alive, keeping its zone records and input; with the class absent, waits within three delays of the last attack and drops the target after that, changing nothing else |
| Bot.BotThread.Pursue | bot_thread.py:277-303 | the re-bound target is attacked: the result is that attack's verdict, its zone records, attack time and input are appended, and the target is kept with the counter advanced iff it survives, else dropped with the counter reset |
| Bot.BotThread.SelectOrExplore | bot_thread.py:316-357 | both zone lists are the old ones, purged iff some detection has an allowed class; commits to the first eligible detection among them with no input; otherwise idles while engaging, or explores when not, leaving the counter, attack time, cursor state and tracking flag as they were |
| Bot.BotThread.Iterate | bot_thread.py:266-359 | one loop pass: throttling; the attack on the re-bound target with its zone records and input, kept iff alive; the grace window and the drop after it, with the counter 0 and no cursor state; selection on the zones the engagement left, purged iff an allowed class is in view; exploration; and the class invariant kept |
| Bot.BotThread.Run | bot_thread.py:258-260 | the loop keeps the class invariant and makes one `Iterate` pass per observation, all of them while still running |
| Bot.BotThread.Stop | bot_thread.py:361-365 | stopping ends the loop, ends engagement, drops the target and stops tracking, from any state |

## Left out

- The cursor-tracking thread (`cursor_tracking_loop`, and the thread
  handling in `start_cursor_tracking` and `stop_cursor_tracking`,
  bot_thread.py:84-123) is not modelled. It exists for concurrency; only the
  `target_tracking_active` flag it reads is modelled. Its mouse moves do
  not appear in the trace.
- Stopping is modelled only as a call between iterations. `stop` runs on
  another thread in the program, and that interleaving is not modelled.
  `Run` iterates over a finite sequence of observations.
- Screen capture, window activation and frame conversion (bot_thread.py:
  127-131, 241-263) are replaced by the detections and captures passed to
  each step.
- The colour detectors in `cursor_detection/cursor_types.py` (HSV masks,
  morphology, contour circularity) are not part of this model. Their
  readings are the `Sensor` oracle.
- `bot_thread.py` imports and calls `load_templates` from
  `cursor_detection/cursor_detection.py`, which defines no such function;
  the model has no template loading. The debug module
  `cursor_detection/cursor_debug.py`, the GUI and hotkeys in `main.py`,
  YOLO inference in `detection/yolo_detector.py`, configuration loading and
  `choose_window` in utils.py are not part of this model. Configured
  constants (dead timeout, post-click delay, obstacle threshold, class
  list) are constructor parameters.
- `input_controller.py.py` is a duplicate of `input_controller.py` and is
  modelled once.
- All `time.sleep` pauses, including `CLICK_INTERVAL`, are left out, since
  they do not change state. `GetCursorConfidence` counts its pauses.
- Each step reads the clock once. All `time.time()` calls within one
  iteration, or within one `attack_target` call, are the same `now`.
- `SendInput`, `GetCursorPos`, `GetSystemMetrics` and `MapVirtualKeyW` are
  not called.
  - Emitted records form the trace.
  - The screen size and mouse position are parameters.
  - A key record keeps the virtual-key code rather than the scan code.
- Floating point is not modelled bit for bit.
  - Smooth-move interpolation is exact real arithmetic followed by
    truncation.
  - Strip means are exact reals.
  - `move_mouse`'s float division is integer floor division. The true
    quotient is either an integer or at least 1/(size-1) away from the next
    one, so truncating the float gives the same value.
  - `sword > hand * 0.6` is compared exactly (as `5*sword > 3*hand`).
- Only the four labels exist, so the "any other state" branch of
  `attack_target` and the "unknown label" outcome of the re-sample are
  reached only through NONE.
- `DetectionResult.score` is carried but never read, as in the source.
- The capture region (`bbox`) is a constructor parameter. The source sets
  it at the start of `run`.
- InputController.InterpolateArrives: the arrival at the destination holds
  in exact arithmetic. In IEEE doubles, `int(p + (t - p) / steps * steps)`
  can fall one short of `t` for some step counts; the bot always uses 5.
- InputController.SmoothMoveEndsAtTarget: as for InterpolateArrives, the
  last move equals `move_mouse(tx, ty)` in exact arithmetic only.
- InputController.Injector.SmoothMove: requires `steps >= 1`. The source
  divides by `steps`, so zero fails there. A negative step count, which the
  source turns into no moves, is also excluded; the bot always passes 5.
- InputController.Injector.MoveMouse: the injector requires a screen at
  least 2 pixels wide and tall. The source divides by `size - 1`, which is
  zero for a 1-pixel screen.
- CursorDetection.GetCursorConfidence: requires `num_samples >= 1`. With no
  samples, `most_common(1)[0]` raises IndexError in the source.
- Bot.BotThread.SmoothRotateCamera: requires `steps != 0`, where the source
  raises ZeroDivisionError.

=== FILE: bot_thread.dfy ===
/**
 The bot's control logic: zone memory of dead and prohibited locations with
 lazy expiry, the engagement step that votes over three cursor samples and
 clicks, loots or abandons, and one iteration of the main loop that throttles
 attacks, re-binds the target to the nearest detection of its class, waits
 out short detector dropouts, picks new targets and otherwise explores.
 */
module Bot {
  import opened Wrappers
  import CD = CursorDetection
  import IC = InputController
  import Obs = Obstacles

  /** One detector output item: class label, centre and confidence. */
  datatype Detection = Detection(className: string, cx: int, cy: int, score: real)

  /** A remembered location and the instant it was recorded. */
  datatype Zone = Zone(x: int, y: int, t: real)

  /** The capture region of the game window, in screen coordinates. */
  datatype Bbox = Bbox(left: int, top: int, width: nat, height: nat)

  /** How an engagement step judges its target. */
  datatype Verdict = Alive | Looted | Forbidden

  /** What one main-loop iteration did. */
  datatype Phase =
    | Throttled                       // too soon after the last attack
    | KeptEngaging                    // attacked, target still alive
    | Waiting                         // target's class missing, within the grace window
    | Acquired(target: Detection)     // a new target was committed
    | NoTarget                        // engaging, but nothing eligible in view
    | Explored(steer: Option<Obs.Steer>)  // not engaging: rotated, then steered or walked

  /** One main-loop iteration's inputs: the detections of the captured
      frame, the frame itself, the clock, the mouse position the system
      reports, and the frames the classifier captures during the step. */
  datatype Observation = Observation(dets: seq<Detection>, frame: Obs.Frame, now: real,
                                     cursorX: int, cursorY: int, capture: nat -> CD.Sensor)

  const ProhibitedTimeout: real := 9.0
  const ZoneHalfWidth: int := 50
  const ZoneHalfHeight: int := 30
  const MoveThresholdSq: int := 25
  const VoteSamples: nat := 3
  const ApproachSteps: int := 5
  const RotateDx: int := 200
  const RotateSteps: int := 5
  const SteerDx: int := 200
  const ForwardKey: int := 87  // ord('W')

  function Abs(x: int): nat
  {
    if x < 0 then -x else x
  }

  /** The rectangular tolerance around a zone: strictly within 50 pixels
      horizontally and 30 vertically. */
  predicate Near(z: Zone, cx: int, cy: int)
    ensures Near(z, cx, cy) <==> z.x - ZoneHalfWidth < cx < z.x + ZoneHalfWidth
                                 && z.y - ZoneHalfHeight < cy < z.y + ZoneHalfHeight
  {
    Abs(cx - z.x) < ZoneHalfWidth && Abs(cy - z.y) < ZoneHalfHeight
  }

  predicate Live(z: Zone, now: real, window: real)
  {
    now - z.t < window
  }

  predicate Covered(zones: seq<Zone>, cx: int, cy: int)
  {
    exists z :: z in zones && Near(z, cx, cy)
  }

  /** The list comprehension that drops expired records, in order. */
  function Unexpired(zones: seq<Zone>, now: real, window: real): (kept: seq<Zone>)
    ensures |kept| <= |zones|
    ensures forall z :: z in kept <==> z in zones && Live(z, now, window)
  {
    if zones == [] then []
    else if Live(zones[0], now, window) then [zones[0]] + Unexpired(zones[1..], now, window)
    else Unexpired(zones[1..], now, window)
  }

  /** Expiry keeps every live record as often as it occurred and drops
      every expired one. */
  lemma {:induction false} UnexpiredMultiplicity(zones: seq<Zone>, now: real, window: real, z: Zone)
    ensures multiset(Unexpired(zones, now, window))[z]
            == if Live(z, now, window) then multiset(zones)[z] else 0
  {
    if zones != [] {
      UnexpiredMultiplicity(zones[1..], now, window, z);
      assert zones == [zones[0]] + zones[1..];
    }
  }

  /** Expiry distributes over concatenation, so a record appended later
      stays behind the earlier ones. */
  lemma {:induction false} UnexpiredAppend(a: seq<Zone>, b: seq<Zone>, now: real, window: real)
    ensures Unexpired(a + b, now, window) == Unexpired(a, now, window) + Unexpired(b, now, window)
  {
    if a == [] {
      assert a + b == b;
    } else {
      var ab := a + b;
      assert ab[0] == a[0] && ab[1..] == a[1..] + b;
      UnexpiredAppend(a[1..], b, now, window);
      if Live(a[0], now, window) {
        assert Unexpired(ab, now, window) == [a[0]] + Unexpired(a[1..] + b, now, window);
      }
    }
  }

  /** Purging twice at the same instant is purging once. */
  lemma {:induction false} UnexpiredIdempotent(zones: seq<Zone>, now: real, window: real)
    ensures Unexpired(Unexpired(zones, now, window), now, window) == Unexpired(zones, now, window)
  {
    if zones != [] {
      UnexpiredIdempotent(zones[1..], now, window);
    }
  }

  /** A record appended at `z.t` covers its neighbourhood exactly while it
      is live: after that only the other records decide. */
  lemma RecordedZoneExpires(zones: seq<Zone>, z: Zone, now: real, window: real, cx: int, cy: int)
    ensures Covered(Unexpired(zones + [z], now, window), cx, cy)
            <==> Covered(Unexpired(zones, now, window), cx, cy) || (Live(z, now, window) && Near(z, cx, cy))
  {
    UnexpiredAppend(zones, [z], now, window);
    var rest := Unexpired(zones, now, window);
    if Live(z, now, window) && Near(z, cx, cy) {
      assert z in Unexpired(zones + [z], now, window);
    }
  }

  /** The detections of class `name`, in detector order. */
  function SameClass(dets: seq<Detection>, name: string): (r: seq<Detection>)
    ensures |r| <= |dets|
    ensures forall d :: d in r <==> d in dets && d.className == name
  {
    if dets == [] then []
    else if dets[0].className == name then [dets[0]] + SameClass(dets[1..], name)
    else SameClass(dets[1..], name)
  }

  /** The filter keeps detector order: filtering a concatenation is
      concatenating the filtered parts, and a single detection is kept
      exactly when it has the class. */
  lemma {:induction false} SameClassAppend(a: seq<Detection>, b: seq<Detection>, name: string)
    ensures SameClass(a + b, name) == SameClass(a, name) + SameClass(b, name)
    ensures forall d :: SameClass([d], name) == if d.className == name then [d] else []
  {
    if a == [] {
      assert a + b == b;
    } else {
      var ab := a + b;
      assert ab[0] == a[0] && ab[1..] == a[1..] + b;
      SameClassAppend(a[1..], b, name);
    }
    forall d
      ensures SameClass([d], name) == if d.className == name then [d] else []
    {
      assert [d][1..] == [];
    }
  }

  function DistSq(d: Detection, x: int, y: int): int
  {
    (d.cx - x) * (d.cx - x) + (d.cy - y) * (d.cy - y)
  }

  /** The scan behind `min(ds, key=squared distance)`: `best` is the first
      nearest detection of ds[..i]. */
  function ClosestFrom(ds: seq<Detection>, x: int, y: int, i: nat, best: nat): (k: nat)
    requires best < i <= |ds|
    requires forall j :: 0 <= j < i ==> DistSq(ds[best], x, y) <= DistSq(ds[j], x, y)
    requires forall j :: 0 <= j < best ==> DistSq(ds[best], x, y) < DistSq(ds[j], x, y)
    ensures best <= k < |ds|
    ensures forall j :: 0 <= j < |ds| ==> DistSq(ds[k], x, y) <= DistSq(ds[j], x, y)
    ensures forall j :: 0 <= j < k ==> DistSq(ds[k], x, y) < DistSq(ds[j], x, y)
    decreases |ds| - i
  {
    if i == |ds| then best
    else if DistSq(ds[i], x, y) < DistSq(ds[best], x, y) then ClosestFrom(ds, x, y, i + 1, i)
    else ClosestFrom(ds, x, y, i + 1, best)
  }

  /** Index of the nearest detection to (x, y); among equally near ones,
      the first. */
  function ClosestIndex(ds: seq<Detection>, x: int, y: int): (k: nat)
    requires |ds| > 0
    ensures k < |ds|
    ensures forall j :: 0 <= j < |ds| ==> DistSq(ds[k], x, y) <= DistSq(ds[j], x, y)
    ensures forall j :: 0 <= j < k ==> DistSq(ds[k], x, y) < DistSq(ds[j], x, y)
  {
    ClosestFrom(ds, x, y, 1, 0)
  }

  /** The target after re-binding to the nearest detection of its class:
      that detection if it lies more than 5 pixels away, else the target
      unchanged. */
  function Rebind(target: Detection, same: seq<Detection>): (t: Detection)
    requires |same| > 0
    ensures t == target || t in same
    ensures t != target ==> DistSq(t, target.cx, target.cy) > MoveThresholdSq
    ensures t != target ==> forall d :: d in same ==> DistSq(t, target.cx, target.cy) <= DistSq(d, target.cx, target.cy)
    ensures (exists d :: d in same && DistSq(d, target.cx, target.cy) <= MoveThresholdSq) ==> t == target
    ensures (forall d :: d in same ==> DistSq(d, target.cx, target.cy) > MoveThresholdSq)
            ==> t == same[ClosestIndex(same, target.cx, target.cy)]
  {
    var k := ClosestIndex(same, target.cx, target.cy);
    var c := same[k];
    assert forall d :: d in same ==> DistSq(c, target.cx, target.cy) <= DistSq(d, target.cx, target.cy) by {
      forall d | d in same
        ensures DistSq(c, target.cx, target.cy) <= DistSq(d, target.cx, target.cy)
      {
        var j :| 0 <= j < |same| && same[j] == d;
      }
    }
    if DistSq(c, target.cx, target.cy) > MoveThresholdSq then c else target
  }

  /** A detection the selector may commit to: an allowed class, outside
      every remembered zone. */
  predicate Eligible(d: Detection, names: seq<string>, dead: seq<Zone>, prohibited: seq<Zone>)
  {
    d.className in names && !Covered(dead, d.cx, d.cy) && !Covered(prohibited, d.cx, d.cy)
  }

  /** The eligible detections in detector order (`targets` in the source). */
  function EligibleOnes(ds: seq<Detection>, names: seq<string>, dead: seq<Zone>, prohibited: seq<Zone>): (r: seq<Detection>)
    ensures |r| <= |ds|
  {
    if ds == [] then []
    else
      var last := ds[|ds| - 1];
      EligibleOnes(ds[..|ds| - 1], names, dead, prohibited)
      + (if Eligible(last, names, dead, prohibited) then [last] else [])
  }

  /** The comprehension keeps exactly the eligible detections. */
  lemma {:induction false} EligibleOnesMembers(ds: seq<Detection>, names: seq<string>, dead: seq<Zone>, prohibited: seq<Zone>)
    ensures forall d :: d in EligibleOnes(ds, names, dead, prohibited) <==> d in ds && Eligible(d, names, dead, prohibited)
  {
    if ds != [] {
      var init := ds[..|ds| - 1];
      EligibleOnesMembers(init, names, dead, prohibited);
      assert ds == init + [ds[|ds| - 1]];
    }
  }

  lemma EligibleOnesSnoc(ds: seq<Detection>, i: nat, names: seq<string>, dead: seq<Zone>, prohibited: seq<Zone>)
    requires i < |ds|
    ensures EligibleOnes(ds[..i + 1], names, dead, prohibited)
            == EligibleOnes(ds[..i], names, dead, prohibited)
               + (if Eligible(ds[i], names, dead, prohibited) then [ds[i]] else [])
    ensures AnyAllowed(ds[..i + 1], names) == (AnyAllowed(ds[..i], names) || ds[i].className in names)
  {
    assert ds[..i + 1][..i] == ds[..i];
  }

  /** `targets[0]` when the comprehension kept anything. */
  function FirstEligible(ds: seq<Detection>, names: seq<string>, dead: seq<Zone>, prohibited: seq<Zone>): (first: Option<Detection>)
    ensures first.Some? ==> first.value in ds && Eligible(first.value, names, dead, prohibited)
    ensures first.None? ==> forall d :: d in ds ==> !Eligible(d, names, dead, prohibited)
  {
    EligibleOnesMembers(ds, names, dead, prohibited);
    var r := EligibleOnes(ds, names, dead, prohibited);
    if r == [] then None else Some(r[0])
  }

  /** The selector commits to the first eligible detection in detector
      order, and to none exactly when nothing is eligible. */
  lemma {:induction false} FirstEligibleIsFirst(ds: seq<Detection>, names: seq<string>, dead: seq<Zone>, prohibited: seq<Zone>)
    ensures FirstEligible(ds, names, dead, prohibited).None?
            <==> forall j :: 0 <= j < |ds| ==> !Eligible(ds[j], names, dead, prohibited)
    ensures FirstEligible(ds, names, dead, prohibited).Some? ==>
            exists k :: 0 <= k < |ds| && ds[k] == FirstEligible(ds, names, dead, prohibited).value
                        && Eligible(ds[k], names, dead, prohibited)
                        && forall j :: 0 <= j < k ==> !Eligible(ds[j], names, dead, prohibited)
  {
    if ds != [] {
      var init := ds[..|ds| - 1];
      FirstEligibleIsFirst(init, names, dead, prohibited);
      assert forall j :: 0 <= j < |init| ==> ds[j] == init[j];
      if FirstEligible(init, names, dead, prohibited).Some? {
        var k :| 0 <= k < |init| && init[k] == FirstEligible(init, names, dead, prohibited).value
                 && Eligible(init[k], names, dead, prohibited)
                 && forall j :: 0 <= j < k ==> !Eligible(init[j], names, dead, prohibited);
        assert ds[k] == FirstEligible(ds, names, dead, prohibited).value;
      } else if Eligible(ds[|ds| - 1], names, dead, prohibited) {
        assert FirstEligible(ds, names, dead, prohibited) == Some(ds[|ds| - 1]);
      } else {
        assert EligibleOnes(ds, names, dead, prohibited) == [];
      }
    }
  }

  /** Some detection of `ds` has an allowed class. */
  predicate AnyAllowed(ds: seq<Detection>, names: seq<string>)
  {
    ds != [] && (AnyAllowed(ds[..|ds| - 1], names) || ds[|ds| - 1].className in names)
  }

  lemma {:induction false} AnyAllowedMeans(ds: seq<Detection>, names: seq<string>)
    ensures AnyAllowed(ds, names) <==> exists j :: 0 <= j < |ds| && ds[j].className in names
  {
    if ds != [] {
      var init := ds[..|ds| - 1];
      AnyAllowedMeans(init, names);
      assert forall j :: 0 <= j < |init| ==> init[j] == ds[j];
    }
  }

  /** With no detection of an allowed class, nothing is eligible whatever
      the zones are. */
  lemma {:induction false} NoAllowedClassNoneEligible(ds: seq<Detection>, names: seq<string>, dead: seq<Zone>, prohibited: seq<Zone>)
    requires !AnyAllowed(ds, names)
    ensures EligibleOnes(ds, names, dead, prohibited) == []
  {
    if ds != [] {
      NoAllowedClassNoneEligible(ds[..|ds| - 1], names, dead, prohibited);
    }
  }

  /** A remembered zone keeps the selector away from every detection near
      it, whatever its class. */
  lemma ZoneBlocksSelection(ds: seq<Detection>, names: seq<string>, dead: seq<Zone>, prohibited: seq<Zone>, z: Zone)
    requires z in dead || z in prohibited
    ensures forall d :: d in ds && Near(z, d.cx, d.cy) ==> FirstEligible(ds, names, dead, prohibited) != Some(d)
  {
    FirstEligibleIsFirst(ds, names, dead, prohibited);
  }

  /** The label the `i`-th classifier call of a step reports at (cx, cy):
      a fresh capture of the whole window, classified around the target. */
  function Sample(bbox: Bbox, capture: nat -> CD.Sensor, i: nat, cx: int, cy: int): (s: CD.CursorState)
    ensures 0 <= cx < bbox.width && 0 <= cy < bbox.height ==>
              s == CD.Decide(capture(i)(CD.Region(CD.Max(0, cy - CD.DefaultSearchRadius),
                                                  CD.Min(bbox.height, cy + CD.DefaultSearchRadius),
                                                  CD.Max(0, cx - CD.DefaultSearchRadius),
                                                  CD.Min(bbox.width, cx + CD.DefaultSearchRadius))))
  {
    CD.DetectCursorState(bbox.width, bbox.height, cx, cy, CD.DefaultSearchRadius, capture(i))
  }

  /** The majority of three labels: one that two of them agree on, else
      the first. */
  function Majority(a: CD.CursorState, b: CD.CursorState, c: CD.CursorState): CD.CursorState
  {
    if a == b || a == c then a else if b == c then b else a
  }

  /** The majority of the first three samples. */
  function Vote(bbox: Bbox, capture: nat -> CD.Sensor, cx: int, cy: int): (v: CD.CursorState)
    ensures v == Sample(bbox, capture, 0, cx, cy) || v == Sample(bbox, capture, 1, cx, cy)
            || v == Sample(bbox, capture, 2, cx, cy)
    ensures Sample(bbox, capture, 1, cx, cy) == Sample(bbox, capture, 2, cx, cy) ==> v == Sample(bbox, capture, 1, cx, cy)
    ensures (Sample(bbox, capture, 0, cx, cy) == Sample(bbox, capture, 1, cx, cy)
             || Sample(bbox, capture, 0, cx, cy) == Sample(bbox, capture, 2, cx, cy))
            ==> v == Sample(bbox, capture, 0, cx, cy)
  {
    Majority(Sample(bbox, capture, 0, cx, cy), Sample(bbox, capture, 1, cx, cy), Sample(bbox, capture, 2, cx, cy))
  }

  /** The vote is `Counter(samples).most_common(1)[0][0]` of the first
      three samples. */
  lemma VoteIsMostCommon(bbox: Bbox, capture: nat -> CD.Sensor, cx: int, cy: int)
    ensures Vote(bbox, capture, cx, cy)
            == CD.MostCommon([Sample(bbox, capture, 0, cx, cy), Sample(bbox, capture, 1, cx, cy),
                              Sample(bbox, capture, 2, cx, cy)])
  {
    CD.MostCommonOfThree(Sample(bbox, capture, 0, cx, cy), Sample(bbox, capture, 1, cx, cy),
                         Sample(bbox, capture, 2, cx, cy));
  }

  /** `Counter(samples).most_common(1)[0][0]` on three samples is their
      majority. */
  method MostCommonOfSamples(samples: seq<CD.CursorState>) returns (winner: CD.CursorState)
    requires |samples| == 3
    ensures winner == Majority(samples[0], samples[1], samples[2])
    ensures winner in samples
  {
    CD.MostCommonOfThree(samples[0], samples[1], samples[2]);
    assert samples == [samples[0], samples[1], samples[2]];
    winner := CD.MostCommon(samples);
  }

  /** The verdict of an engagement step from the voted label and, when the
      vote was NONE, the label of the re-sample taken after the click. */
  function Resolve(vote: CD.CursorState, recheck: CD.CursorState): (v: Verdict)
    ensures v == Forbidden <==> vote == CD.Prohibited || (vote == CD.NoCursor && recheck == CD.Prohibited)
    ensures v == Looted <==> vote == CD.Hand || (vote == CD.NoCursor && recheck == CD.Hand)
    ensures v == Alive <==> vote == CD.RedSword || (vote == CD.NoCursor && (recheck == CD.RedSword || recheck == CD.NoCursor))
  {
    match vote
    case Prohibited => Forbidden
    case Hand => Looted
    case RedSword => Alive
    case NoCursor =>
      match recheck
      case RedSword => Alive
      case Hand => Looted
      case Prohibited => Forbidden
      case NoCursor => Alive
  }

  /** Left clicks an engagement step issues: one to attack unless the vote
      was PROHIBITED or HAND, and one to pick up loot when the target is
      looted. */
  function ClickCount(vote: CD.CursorState, recheck: CD.CursorState): (n: nat)
    ensures n <= 2
    ensures n == 0 <==> vote == CD.Prohibited
    ensures n == 2 <==> vote == CD.NoCursor && recheck == CD.Hand
  {
    (if vote == CD.RedSword || vote == CD.NoCursor then 1 else 0)
    + (if Resolve(vote, recheck) == Looted then 1 else 0)
  }

  /** `n` left clicks in a row. */
  function LeftClicks(n: nat): (es: seq<IC.Event>)
    ensures |es| == 2 * n
  {
    if n == 0 then [] else IC.ClickEvents("left") + LeftClicks(n - 1)
  }

  /** The events of `smooth_rotate_camera(total_dx, steps)`: hold the right
      button, move `steps` times by `total_dx // steps`, release. */
  function RotateCameraEvents(totalDx: int, steps: int): (es: seq<IC.Event>)
    requires steps != 0
    ensures |es| == 2 + (if steps > 0 then steps else 0)
    ensures es[0] == IC.MouseInput(0, 0, IC.ButtonDownFlags("right"))
    ensures es[|es| - 1] == IC.MouseInput(0, 0, IC.ButtonUpFlags("right"))
    ensures forall i :: 1 <= i < |es| - 1 ==> es[i] == IC.MouseInput(totalDx / steps, 0, IC.MoveFlag)
  {
    [IC.MouseInput(0, 0, IC.ButtonDownFlags("right"))]
    + RelativeMoves(totalDx, steps)
    + [IC.MouseInput(0, 0, IC.ButtonUpFlags("right"))]
  }

  function RelativeMoves(totalDx: int, steps: int): seq<IC.Event>
    requires steps != 0
  {
    if steps > 0 then seq(steps, _ => IC.MouseInput(totalDx / steps, 0, IC.MoveFlag)) else []
  }

  function HorizontalTravel(es: seq<IC.Event>): int
  {
    if es == [] then 0
    else (if es[0].MouseInput? && es[0].flags == IC.MoveFlag then es[0].dx else 0) + HorizontalTravel(es[1..])
  }

  /** A rotation travels `total_dx` rounded down to a multiple of `steps`:
      less than one step short of it. */
  lemma {:induction false} RotationTravel(totalDx: int, steps: int)
    requires steps > 0
    ensures HorizontalTravel(RelativeMoves(totalDx, steps)) == steps * (totalDx / steps)
    ensures totalDx - steps < HorizontalTravel(RelativeMoves(totalDx, steps)) <= totalDx
  {
    ConstantTravel(RelativeMoves(totalDx, steps), totalDx / steps);
  }

  lemma {:induction false} ConstantTravel(es: seq<IC.Event>, dx: int)
    requires forall i :: 0 <= i < |es| ==> es[i] == IC.MouseInput(dx, 0, IC.MoveFlag)
    ensures HorizontalTravel(es) == |es| * dx
  {
    if es != [] {
      ConstantTravel(es[1..], dx);
    }
  }

  /** The events of the steering step after a rotation: turn by 200 pixels
      toward the brighter side, or walk forward with a W key pulse. */
  function SteerEvents(dir: Option<Obs.Steer>): (es: seq<IC.Event>)
    ensures dir.None? ==> es == [IC.KeyInput(ForwardKey, IC.KeyDownFlags()), IC.KeyInput(ForwardKey, IC.KeyUpFlags())]
    ensures dir.Some? ==> |es| == 3
                          && es[0] == IC.MouseInput(0, 0, IC.ButtonDownFlags("right"))
                          && es[2] == IC.MouseInput(0, 0, IC.ButtonUpFlags("right"))
                          && es[1] == IC.MouseInput(if dir.value == Obs.SteerLeft then -200 else 200, 0, IC.MoveFlag)
  {
    match dir
    case Some(SteerLeft) =>
      [IC.MouseInput(0, 0, IC.ButtonDownFlags("right")), IC.MouseInput(-SteerDx, 0, IC.MoveFlag),
       IC.MouseInput(0, 0, IC.ButtonUpFlags("right"))]
    case Some(SteerRight) =>
      [IC.MouseInput(0, 0, IC.ButtonDownFlags("right")), IC.MouseInput(SteerDx, 0, IC.MoveFlag),
       IC.MouseInput(0, 0, IC.ButtonUpFlags("right"))]
    case None =>
      [IC.KeyInput(ForwardKey, IC.KeyDownFlags()), IC.KeyInput(ForwardKey, IC.KeyUpFlags())]
  }

  predicate InCapture(bbox: Bbox, d: Detection)
  {
    0 <= d.cx < bbox.width && 0 <= d.cy < bbox.height
  }

  /** What one engagement step with target `t` does, as functions of its
      inputs. The step attacks only a target inside the capture region. */
  function VerdictAt(bbox: Bbox, capture: nat -> CD.Sensor, t: Detection): Verdict
  {
    Resolve(Vote(bbox, capture, t.cx, t.cy), Sample(bbox, capture, VoteSamples, t.cx, t.cy))
  }

  /** The step reports the target alive. */
  predicate Survives(bbox: Bbox, capture: nat -> CD.Sensor, t: Detection)
  {
    InCapture(bbox, t) && VerdictAt(bbox, capture, t) == Alive
  }

  /** The step clicks to attack, which counts an attack and restarts the
      post-click delay. */
  predicate Swings(bbox: Bbox, capture: nat -> CD.Sensor, t: Detection)
  {
    InCapture(bbox, t)
    && (Vote(bbox, capture, t.cx, t.cy) == CD.RedSword || Vote(bbox, capture, t.cx, t.cy) == CD.NoCursor)
  }

  /** The zone record the step appends when its verdict is `v`. */
  function RecordOn(bbox: Bbox, capture: nat -> CD.Sensor, t: Detection, now: real, v: Verdict): seq<Zone>
  {
    if InCapture(bbox, t) && VerdictAt(bbox, capture, t) == v then [Zone(t.cx, t.cy, now)] else []
  }

  /** The input the step sends: the approach glide and its left clicks. */
  function AttackEvents(bbox: Bbox, capture: nat -> CD.Sensor, t: Detection, cursorX: int, cursorY: int,
                        screenWidth: int, screenHeight: int): seq<IC.Event>
    requires screenWidth >= 2 && screenHeight >= 2
  {
    if !InCapture(bbox, t) then []
    else IC.SmoothMoveEvents(cursorX, cursorY, t.cx + bbox.left, t.cy + bbox.top, ApproachSteps,
                             screenWidth, screenHeight)
         + LeftClicks(ClickCount(Vote(bbox, capture, t.cx, t.cy), Sample(bbox, capture, VoteSamples, t.cx, t.cy)))
  }

  /** For a target inside the capture region the step's effects are those
      of its verdict. */
  lemma AttackInCapture(bbox: Bbox, capture: nat -> CD.Sensor, t: Detection, now: real,
                        cursorX: int, cursorY: int, screenWidth: int, screenHeight: int)
    requires InCapture(bbox, t) && screenWidth >= 2 && screenHeight >= 2
    ensures var vote := Vote(bbox, capture, t.cx, t.cy);
            var recheck := Sample(bbox, capture, VoteSamples, t.cx, t.cy);
            var v := Resolve(vote, recheck);
            && (Survives(bbox, capture, t) <==> v == Alive)
            && (Swings(bbox, capture, t) <==> vote == CD.RedSword || vote == CD.NoCursor)
            && RecordOn(bbox, capture, t, now, Looted) == (if v == Looted then [Zone(t.cx, t.cy, now)] else [])
            && RecordOn(bbox, capture, t, now, Forbidden) == (if v == Forbidden then [Zone(t.cx, t.cy, now)] else [])
            && AttackEvents(bbox, capture, t, cursorX, cursorY, screenWidth, screenHeight)
               == IC.SmoothMoveEvents(cursorX, cursorY, t.cx + bbox.left, t.cy + bbox.top, ApproachSteps,
                                      screenWidth, screenHeight)
                  + LeftClicks(ClickCount(vote, recheck))
  {
  }

  /** A surviving target was attacked: every alive verdict follows a
      click, and a surviving target leaves no zone record. */
  lemma SurvivorWasAttacked(bbox: Bbox, capture: nat -> CD.Sensor, t: Detection, now: real)
    requires Survives(bbox, capture, t)
    ensures Swings(bbox, capture, t)
    ensures RecordOn(bbox, capture, t, now, Looted) == [] && RecordOn(bbox, capture, t, now, Forbidden) == []
  {
  }

  /** The zone lists after the selector's comprehension: purged when some
      detection has an allowed class (the zone query runs), else as they
      were. */
  function Purged(zones: seq<Zone>, dets: seq<Detection>, names: seq<string>, now: real, window: real): seq<Zone>
  {
    if AnyAllowed(dets, names) then Unexpired(zones, now, window) else zones
  }

  class BotThread {
    const bbox: Bbox
    const classNames: seq<string>
    const deadTimeout: real
    const postClickDelay: real
    const obstacleThreshold: real
    const input: IC.Injector

    var running: bool
    var attacking: bool
    var currentTarget: Option<Detection>
    var lastAttackTime: real
    var attackCount: nat
    var targetCursorState: Option<CD.CursorState>
    var targetTrackingActive: bool
    var deadZones: seq<Zone>
    var prohibitedZones: seq<Zone>

    /** Cursor tracking runs only for a committed target, and a target is
        committed only while the bot is engaging. */
    ghost predicate Valid()
      reads this, input
    {
      && input.Valid()
      && (targetTrackingActive ==> currentTarget.Some?)
      && (currentTarget.Some? ==> attacking)
    }

    constructor (bbox: Bbox, classNames: seq<string>, deadTimeout: real, postClickDelay: real,
                 obstacleThreshold: real, input: IC.Injector)
      requires input.Valid()
      ensures Valid()
      ensures this.bbox == bbox && this.classNames == classNames && this.input == input
      ensures this.deadTimeout == deadTimeout && this.postClickDelay == postClickDelay
      ensures this.obstacleThreshold == obstacleThreshold
      ensures !running && !attacking && currentTarget.None? && lastAttackTime == 0.0 && attackCount == 0
      ensures targetCursorState.None? && !targetTrackingActive && deadZones == [] && prohibitedZones == []
    {
      this.bbox := bbox;
      this.classNames := classNames;
      this.deadTimeout := deadTimeout;
      this.postClickDelay := postClickDelay;
      this.obstacleThreshold := obstacleThreshold;
      this.input := input;
      running := false;
      attacking := false;
      currentTarget := None;
      lastAttackTime := 0.0;
      attackCount := 0;
      targetCursorState := None;
      targetTrackingActive := false;
      deadZones := [];
      prohibitedZones := [];
    }

    /** Purge expired records from both lists, then test (cx, cy) against
        what is left. */
    method IsInDeadZone(cx: int, cy: int, now: real) returns (inZone: bool)
      modifies this`deadZones, this`prohibitedZones
      ensures deadZones == Unexpired(old(deadZones), now, deadTimeout)
      ensures prohibitedZones == Unexpired(old(prohibitedZones), now, ProhibitedTimeout)
      ensures inZone <==> Covered(deadZones, cx, cy) || Covered(prohibitedZones, cx, cy)
    {
      deadZones := Unexpired(deadZones, now, deadTimeout);
      prohibitedZones := Unexpired(prohibitedZones, now, ProhibitedTimeout);
      var i := 0;
      while i < |deadZones|
        invariant 0 <= i <= |deadZones|
        invariant forall j :: 0 <= j < i ==> !Near(deadZones[j], cx, cy)
      {
        if Near(deadZones[i], cx, cy) {
          return true;
        }
        i := i + 1;
      }
      i := 0;
      while i < |prohibitedZones|
        invariant 0 <= i <= |prohibitedZones|
        invariant forall j :: 0 <= j < i ==> !Near(prohibitedZones[j], cx, cy)
      {
        if Near(prohibitedZones[i], cx, cy) {
          return true;
        }
        i := i + 1;
      }
      return false;
    }

    /** The selector's list comprehension: every detection of an allowed
        class is checked against the zones (each check purging them), and
        the first one outside every zone is chosen. */
    method SelectTarget(dets: seq<Detection>, now: real) returns (chosen: Option<Detection>)
      modifies this`deadZones, this`prohibitedZones
      ensures AnyAllowed(dets, classNames) ==>
                deadZones == Unexpired(old(deadZones), now, deadTimeout)
                && prohibitedZones == Unexpired(old(prohibitedZones), now, ProhibitedTimeout)
      ensures !AnyAllowed(dets, classNames) ==>
                deadZones == old(deadZones) && prohibitedZones == old(prohibitedZones)
      ensures chosen == FirstEligible(dets, classNames, deadZones, prohibitedZones)
    {
      ghost var dead0 := Unexpired(deadZones, now, deadTimeout);
      ghost var prohibited0 := Unexpired(prohibitedZones, now, ProhibitedTimeout);
      UnexpiredIdempotent(deadZones, now, deadTimeout);
      UnexpiredIdempotent(prohibitedZones, now, ProhibitedTimeout);
      var targets: seq<Detection> := [];
      var i := 0;
      while i < |dets|
        invariant 0 <= i <= |dets|
        invariant AnyAllowed(dets[..i], classNames) ==> deadZones == dead0 && prohibitedZones == prohibited0
        invariant !AnyAllowed(dets[..i], classNames) ==>
                    deadZones == old(deadZones) && prohibitedZones == old(prohibitedZones)
        invariant targets == EligibleOnes(dets[..i], classNames, dead0, prohibited0)
      {
        var d := dets[i];
        EligibleOnesSnoc(dets, i, classNames, dead0, prohibited0);
        var keep := Screen(d, now, dead0, prohibited0);
        if keep {
          targets := targets + [d];
        }
        i := i + 1;
      }
      assert dets[..|dets|] == dets;
      if !AnyAllowed(dets, classNames) {
        NoAllowedClassNoneEligible(dets, classNames, dead0, prohibited0);
        NoAllowedClassNoneEligible(dets, classNames, deadZones, prohibitedZones);
      }
      chosen := if targets == [] then None else Some(targets[0]);
    }

    /** The comprehension's filter for one detection: an allowed class, and
        (only then, purging the zones) outside every zone. `dead0` and
        `prohibited0` are the purged lists. */
    method Screen(d: Detection, now: real, ghost dead0: seq<Zone>, ghost prohibited0: seq<Zone>)
      returns (keep: bool)
      requires Unexpired(deadZones, now, deadTimeout) == dead0
      requires Unexpired(prohibitedZones, now, ProhibitedTimeout) == prohibited0
      modifies this`deadZones, this`prohibitedZones
      ensures keep == Eligible(d, classNames, dead0, prohibited0)
      ensures d.className in classNames ==> deadZones == dead0 && prohibitedZones == prohibited0
      ensures d.className !in classNames ==> deadZones == old(deadZones) && prohibitedZones == old(prohibitedZones)
    {
      keep := false;
      if d.className in classNames {
        var hit := IsInDeadZone(d.cx, d.cy, now);
        keep := !hit;
      }
    }

    /** `attack_target`: validate the target, approach it, vote over three
        cursor samples and act on the vote. `(cursorX, cursorY)` is where
        the mouse is when the approach starts. */
    method AttackTarget(now: real, cursorX: int, cursorY: int, capture: nat -> CD.Sensor)
      returns (alive: bool, samples: nat)
      requires Valid()
      modifies this, input
      ensures Valid()
      ensures running == old(running) && attacking == old(attacking) && currentTarget == old(currentTarget)
      ensures old(currentTarget.None?) ==>
                !alive && samples == 0 && unchanged(this) && input.trace == old(input.trace)
      ensures old(currentTarget.Some?) ==>
                var t := old(currentTarget.value);
                && alive == Survives(bbox, capture, t)
                && samples == (if !InCapture(bbox, t) then 0
                               else if Vote(bbox, capture, t.cx, t.cy) == CD.NoCursor then VoteSamples + 1
                               else VoteSamples)
                && deadZones == old(deadZones) + RecordOn(bbox, capture, t, now, Looted)
                && prohibitedZones == old(prohibitedZones) + RecordOn(bbox, capture, t, now, Forbidden)
                && (if Swings(bbox, capture, t)
                    then attackCount == old(attackCount) + 1 && lastAttackTime == now
                    else attackCount == old(attackCount) && lastAttackTime == old(lastAttackTime))
                && targetCursorState == (if InCapture(bbox, t) then Some(Vote(bbox, capture, t.cx, t.cy))
                                         else old(targetCursorState))
                && targetTrackingActive == (if InCapture(bbox, t) then alive else old(targetTrackingActive))
                && input.trace == old(input.trace)
                   + AttackEvents(bbox, capture, t, cursorX, cursorY, input.screenWidth, input.screenHeight)
    {
      if currentTarget.None? {
        return false, 0;
      }
      var cx, cy := currentTarget.value.cx, currentTarget.value.cy;
      if cx < 0 || cx >= bbox.width || cy < 0 || cy >= bbox.height {
        return false, 0;
      }
      alive, samples := Engage(currentTarget.value, now, cursorX, cursorY, capture);
    }

    /** The engagement proper, for a target `t` inside the capture region:
        approach, vote, act. */
    method Engage(t: Detection, now: real, cursorX: int, cursorY: int, capture: nat -> CD.Sensor)
      returns (alive: bool, samples: nat)
      requires input.Valid() && InCapture(bbox, t)
      modifies this`targetTrackingActive, this`targetCursorState, this`deadZones, this`prohibitedZones,
               this`attackCount, this`lastAttackTime, input
      ensures alive == Survives(bbox, capture, t)
      ensures samples == (if Vote(bbox, capture, t.cx, t.cy) == CD.NoCursor then VoteSamples + 1 else VoteSamples)
      ensures targetCursorState == Some(Vote(bbox, capture, t.cx, t.cy))
      ensures targetTrackingActive == alive
      ensures deadZones == old(deadZones) + RecordOn(bbox, capture, t, now, Looted)
      ensures prohibitedZones == old(prohibitedZones) + RecordOn(bbox, capture, t, now, Forbidden)
      ensures if Swings(bbox, capture, t)
              then attackCount == old(attackCount) + 1 && lastAttackTime == now
              else attackCount == old(attackCount) && lastAttackTime == old(lastAttackTime)
      ensures input.trace == old(input.trace)
                + AttackEvents(bbox, capture, t, cursorX, cursorY, input.screenWidth, input.screenHeight)
    {
      AttackInCapture(bbox, capture, t, now, cursorX, cursorY, input.screenWidth, input.screenHeight);
      Approach(t.cx, t.cy, cursorX, cursorY);
      var vote := SampleVote(t.cx, t.cy, capture);
      targetCursorState := Some(vote);
      alive, samples := ActOnVote(vote, t.cx, t.cy, now, capture);
    }

    /** Start cursor tracking if it is not running, then glide the mouse
        from where it is to the target's screen position. */
    method Approach(cx: int, cy: int, cursorX: int, cursorY: int)
      requires input.Valid()
      modifies this`targetTrackingActive, input
      ensures targetTrackingActive
      ensures input.trace == old(input.trace)
                + IC.SmoothMoveEvents(cursorX, cursorY, cx + bbox.left, cy + bbox.top, ApproachSteps,
                                      input.screenWidth, input.screenHeight)
    {
      if !targetTrackingActive {
        targetTrackingActive := true;
      }
      input.SmoothMove(cursorX, cursorY, cx + bbox.left, cy + bbox.top, ApproachSteps);
    }

    /** Classify the target's surroundings in three fresh captures and take
        the majority label. */
    method SampleVote(cx: int, cy: int, capture: nat -> CD.Sensor) returns (vote: CD.CursorState)
      ensures vote == Vote(bbox, capture, cx, cy)
    {
      var cursorSamples: seq<CD.CursorState> := [];
      var i := 0;
      while i < VoteSamples
        invariant 0 <= i <= VoteSamples
        invariant |cursorSamples| == i
        invariant forall j :: 0 <= j < i ==> cursorSamples[j] == Sample(bbox, capture, j, cx, cy)
      {
        cursorSamples := cursorSamples + [Sample(bbox, capture, i, cx, cy)];
        i := i + 1;
      }
      vote := MostCommonOfSamples(cursorSamples);
    }

    /** The branch on the voted label: record a prohibited zone; or loot,
        record a dead zone; or count an attack, and when the vote was NONE
        classify once more and act on that. */
    method ActOnVote(vote: CD.CursorState, cx: int, cy: int, now: real, capture: nat -> CD.Sensor)
      returns (alive: bool, samples: nat)
      requires input.Valid()
      modifies this`deadZones, this`prohibitedZones, this`targetTrackingActive, this`attackCount,
               this`lastAttackTime, input
      ensures var recheck := Sample(bbox, capture, VoteSamples, cx, cy);
              var v := Resolve(vote, recheck);
              && samples == (if vote == CD.NoCursor then VoteSamples + 1 else VoteSamples)
              && alive == (v == Alive)
              && targetTrackingActive == (if alive then old(targetTrackingActive) else false)
              && deadZones == old(deadZones) + (if v == Looted then [Zone(cx, cy, now)] else [])
              && prohibitedZones == old(prohibitedZones) + (if v == Forbidden then [Zone(cx, cy, now)] else [])
              && (if vote == CD.RedSword || vote == CD.NoCursor
                  then attackCount == old(attackCount) + 1 && lastAttackTime == now
                  else attackCount == old(attackCount) && lastAttackTime == old(lastAttackTime))
              && input.trace == old(input.trace) + LeftClicks(ClickCount(vote, recheck))
    {
      samples := VoteSamples;
      match vote {
        case Prohibited =>
          prohibitedZones := prohibitedZones + [Zone(cx, cy, now)];
          targetTrackingActive := false;
          alive := false;
        case Hand =>
          input.ClickMouse("left");
          deadZones := deadZones + [Zone(cx, cy, now)];
          targetTrackingActive := false;
          alive := false;
        case RedSword =>
          input.ClickMouse("left");
          lastAttackTime := now;
          attackCount := attackCount + 1;
          alive := true;
        case NoCursor =>
          input.ClickMouse("left");
          lastAttackTime := now;
          attackCount := attackCount + 1;
          var recheck := Sample(bbox, capture, VoteSamples, cx, cy);
          samples := VoteSamples + 1;
          if recheck == CD.RedSword {
            alive := true;
          } else if recheck == CD.Hand {
            input.ClickMouse("left");
            deadZones := deadZones + [Zone(cx, cy, now)];
            targetTrackingActive := false;
            alive := false;
          } else if recheck == CD.Prohibited {
            prohibitedZones := prohibitedZones + [Zone(cx, cy, now)];
            targetTrackingActive := false;
            alive := false;
          } else {
            alive := true;
          }
      }
      assert LeftClicks(1) == IC.ClickEvents("left");
      assert LeftClicks(2) == IC.ClickEvents("left") + IC.ClickEvents("left");
    }

    /** `smooth_rotate_camera`: hold the right button and turn in `steps`
        equal relative moves. */
    method SmoothRotateCamera(totalDx: int, steps: int)
      requires steps != 0
      modifies input
      ensures input.trace == old(input.trace) + RotateCameraEvents(totalDx, steps)
    {
      input.PressMouse("right");
      var stepDx := totalDx / steps;
      var i := 0;
      while i < steps
        invariant steps > 0 ==> 0 <= i <= steps
        invariant steps < 0 ==> i == 0
        invariant input.trace == old(input.trace) + [IC.MouseInput(0, 0, IC.ButtonDownFlags("right"))]
                                 + RelativeMoves(totalDx, steps)[..i]
      {
        input.MoveMouseRel(stepDx, 0);
        i := i + 1;
      }
      assert RelativeMoves(totalDx, steps)[..i] == RelativeMoves(totalDx, steps);
      input.ReleaseMouse("right");
    }

    /** Drop the target and stop cursor tracking. */
    method ClearTarget()
      modifies this`currentTarget, this`attackCount, this`targetCursorState, this`targetTrackingActive
      ensures currentTarget.None? && attackCount == 0 && targetCursorState.None? && !targetTrackingActive
    {
      currentTarget := None;
      attackCount := 0;
      targetCursorState := None;
      targetTrackingActive := false;
    }

    /** Commit to `d`, back-dating the last attack so that the post-click
        delay has already elapsed, and start cursor tracking. */
    method CommitTarget(d: Detection, now: real)
      modifies this`currentTarget, this`attackCount, this`lastAttackTime, this`targetTrackingActive
      ensures currentTarget == Some(d) && attackCount == 0 && targetTrackingActive
      ensures lastAttackTime == now - postClickDelay
      ensures now - lastAttackTime >= postClickDelay
    {
      currentTarget := Some(d);
      attackCount := 0;
      lastAttackTime := now - postClickDelay;
      targetTrackingActive := true;
    }

    /** Rotate the view, then steer away from a dark middle strip or walk
        forward. */
    method Explore(frame: Obs.Frame) returns (dir: Option<Obs.Steer>)
      requires Obs.Rectangular(frame)
      modifies input
      ensures dir == Obs.DetectObstacleDirection(frame, obstacleThreshold)
      ensures input.trace == old(input.trace) + RotateCameraEvents(RotateDx, RotateSteps) + SteerEvents(dir)
    {
      SmoothRotateCamera(RotateDx, RotateSteps);
      dir := Obs.DetectObstacleDirection(frame, obstacleThreshold);
      match dir {
        case Some(SteerLeft) =>
          input.PressMouse("right");
          input.MoveMouseRel(-SteerDx, 0);
          input.ReleaseMouse("right");
        case Some(SteerRight) =>
          input.PressMouse("right");
          input.MoveMouseRel(SteerDx, 0);
          input.ReleaseMouse("right");
        case None =>
          input.PressKey(ForwardKey);
          input.ReleaseKey(ForwardKey);
      }
    }

    /** The part of the loop body that runs while a target is committed:
        throttle, re-bind and attack, or wait out a short dropout of the
        target's class. `phase` is None when the target has been dropped and
        the body goes on to selection. */
    method EngageCurrent(obs: Observation) returns (phase: Option<Phase>, engaged: Option<Detection>)
      requires Valid() && attacking && currentTarget.Some?
      modifies this, input
      ensures Valid() && running == old(running) && attacking
      ensures obs.now - old(lastAttackTime) < postClickDelay ==>
                phase == Some(Throttled) && engaged.None? && unchanged(this) && input.trace == old(input.trace)
      // the re-bound target is attacked; it is kept exactly when the attack
      // reports it alive, and every zone record and input of the attack stays
      ensures obs.now - old(lastAttackTime) >= postClickDelay
              && SameClass(obs.dets, old(currentTarget.value.className)) != [] ==>
                var t := Rebind(old(currentTarget.value), SameClass(obs.dets, old(currentTarget.value.className)));
                && engaged == Some(t)
                && (phase == Some(KeptEngaging) || phase.None?)
                && (phase == Some(KeptEngaging) <==> Survives(bbox, obs.capture, t))
                && deadZones == old(deadZones) + RecordOn(bbox, obs.capture, t, obs.now, Looted)
                && prohibitedZones == old(prohibitedZones) + RecordOn(bbox, obs.capture, t, obs.now, Forbidden)
                && lastAttackTime == (if Swings(bbox, obs.capture, t) then obs.now else old(lastAttackTime))
                && input.trace == old(input.trace)
                   + AttackEvents(bbox, obs.capture, t, obs.cursorX, obs.cursorY, input.screenWidth, input.screenHeight)
                && (Survives(bbox, obs.capture, t) ==>
                      currentTarget == Some(t) && attackCount == old(attackCount) + 1
                      && targetCursorState == Some(Vote(bbox, obs.capture, t.cx, t.cy)) && targetTrackingActive)
      // a class missing for less than three post-click delays is waited out
      ensures obs.now - old(lastAttackTime) >= postClickDelay
              && SameClass(obs.dets, old(currentTarget.value.className)) == []
              && obs.now - old(lastAttackTime) < 3.0 * postClickDelay ==>
                phase == Some(Waiting) && engaged.None? && unchanged(this) && input.trace == old(input.trace)
      // after that the target is dropped, and nothing else changes
      ensures SameClass(obs.dets, old(currentTarget.value.className)) == []
              && obs.now - old(lastAttackTime) >= 3.0 * postClickDelay
              && obs.now - old(lastAttackTime) >= postClickDelay ==>
                phase.None? && engaged.None?
                && deadZones == old(deadZones) && prohibitedZones == old(prohibitedZones)
                && lastAttackTime == old(lastAttackTime) && input.trace == old(input.trace)
      ensures phase == Some(KeptEngaging) ==> engaged.Some? && currentTarget == engaged
      ensures phase.Some? ==> phase.value == Throttled || phase.value == KeptEngaging || phase.value == Waiting
      ensures phase.None? ==>
                currentTarget.None? && attackCount == 0 && targetCursorState.None? && !targetTrackingActive
    {
      var sinceAttack := obs.now - lastAttackTime;
      if sinceAttack < postClickDelay {
        return Some(Throttled), None;
      }
      var target := currentTarget.value;
      var same := SameClass(obs.dets, target.className);
      if same != [] {
        var alive;
        alive, engaged := Pursue(same, obs);
        phase := if alive then Some(KeptEngaging) else None;
      } else {
        if sinceAttack < 3.0 * postClickDelay {
          return Some(Waiting), None;
        }
        ClearTarget();
        phase, engaged := None, None;
      }
    }

    /** Re-bind the target to the nearest detection of its class when that
        one is more than 5 pixels away, attack it, and drop it unless the
        attack reports it alive. */
    method Pursue(same: seq<Detection>, obs: Observation) returns (alive: bool, engaged: Option<Detection>)
      requires Valid() && currentTarget.Some? && same != []
      modifies this, input
      ensures Valid() && running == old(running) && attacking == old(attacking)
      ensures var t := Rebind(old(currentTarget.value), same);
              && engaged == Some(t)
              && alive == Survives(bbox, obs.capture, t)
              && deadZones == old(deadZones) + RecordOn(bbox, obs.capture, t, obs.now, Looted)
              && prohibitedZones == old(prohibitedZones) + RecordOn(bbox, obs.capture, t, obs.now, Forbidden)
              && lastAttackTime == (if Swings(bbox, obs.capture, t) then obs.now else old(lastAttackTime))
              && input.trace == old(input.trace)
                 + AttackEvents(bbox, obs.capture, t, obs.cursorX, obs.cursorY, input.screenWidth, input.screenHeight)
              && (alive ==>
                    currentTarget == Some(t) && attackCount == old(attackCount) + 1
                    && targetCursorState == Some(Vote(bbox, obs.capture, t.cx, t.cy)) && targetTrackingActive)
              && (!alive ==>
                    currentTarget.None? && attackCount == 0 && targetCursorState.None? && !targetTrackingActive)
    {
      var target := currentTarget.value;
      var closest := same[ClosestIndex(same, target.cx, target.cy)];
      if DistSq(closest, target.cx, target.cy) > MoveThresholdSq {
        currentTarget := Some(closest);
      }
      engaged := currentTarget;
      var samples;
      alive, samples := AttackTarget(obs.now, obs.cursorX, obs.cursorY, obs.capture);
      if alive {
        SurvivorWasAttacked(bbox, obs.capture, engaged.value, obs.now);
      } else {
        ClearTarget();
      }
    }

    /** The part of the loop body that runs with no committed target: commit
        to the first eligible detection, or, when not engaging at all,
        explore. */
    method SelectOrExplore(obs: Observation) returns (phase: Phase)
      requires Valid() && currentTarget.None? && Obs.Rectangular(obs.frame)
      modifies this, input
      ensures Valid() && running == old(running)
      ensures phase.Acquired? || phase == NoTarget || phase.Explored?
      // the zone query purges both lists when some detection has an allowed class
      ensures deadZones == Purged(old(deadZones), obs.dets, classNames, obs.now, deadTimeout)
      ensures prohibitedZones == Purged(old(prohibitedZones), obs.dets, classNames, obs.now, ProhibitedTimeout)
      ensures targetCursorState == old(targetCursorState)
      ensures phase.Acquired? ==>
                currentTarget == Some(phase.target) && attacking && attackCount == 0 && targetTrackingActive
                && lastAttackTime == obs.now - postClickDelay
                && currentTarget == FirstEligible(obs.dets, classNames, deadZones, prohibitedZones)
                && input.trace == old(input.trace)
      ensures phase == NoTarget ==>
                old(attacking) && attacking && currentTarget.None? && targetTrackingActive == old(targetTrackingActive)
                && input.trace == old(input.trace)
                && FirstEligible(obs.dets, classNames, deadZones, prohibitedZones).None?
      // without a new target the counter, attack time and tracking flag stay
      ensures !phase.Acquired? ==>
                attackCount == old(attackCount) && lastAttackTime == old(lastAttackTime)
                && targetTrackingActive == old(targetTrackingActive)
      ensures phase.Explored? ==>
                !old(attacking) && !attacking && currentTarget.None?
                && FirstEligible(obs.dets, classNames, deadZones, prohibitedZones).None?
                && phase.steer == Obs.DetectObstacleDirection(obs.frame, obstacleThreshold)
                && input.trace == old(input.trace) + RotateCameraEvents(RotateDx, RotateSteps) + SteerEvents(phase.steer)
    {
      var chosen := SelectTarget(obs.dets, obs.now);
      if chosen.Some? {
        attacking := true;
        CommitTarget(chosen.value, obs.now);
        return Acquired(chosen.value);
      }
      if attacking {
        return NoTarget;
      }
      var dir := Explore(obs.frame);
      return Explored(dir);
    }

    /** One pass of the main loop's body on the detections of one frame. */
    method Iterate(obs: Observation) returns (phase: Phase, engaged: Option<Detection>)
      requires Valid() && Obs.Rectangular(obs.frame)
      modifies this, input
      ensures Valid()
      ensures running == old(running)
      // throttling: no attack before the post-click delay has elapsed
      ensures old(attacking && currentTarget.Some?) && obs.now - old(lastAttackTime) < postClickDelay ==>
                phase == Throttled && engaged.None? && unchanged(this) && input.trace == old(input.trace)
      // re-binding: the attacked target is the nearest same-class detection
      // if it moved more than 5 pixels, else the old target
      ensures old(attacking && currentTarget.Some?) && obs.now - old(lastAttackTime) >= postClickDelay
              && SameClass(obs.dets, old(currentTarget.value.className)) != [] ==>
                engaged == Some(Rebind(old(currentTarget.value), SameClass(obs.dets, old(currentTarget.value.className))))
      // grace window: a missing class is tolerated for three post-click delays
      ensures old(attacking && currentTarget.Some?) && obs.now - old(lastAttackTime) >= postClickDelay
              && SameClass(obs.dets, old(currentTarget.value.className)) == []
              && obs.now - old(lastAttackTime) < 3.0 * postClickDelay ==>
                phase == Waiting && engaged.None? && unchanged(this) && input.trace == old(input.trace)
      // the attack on the re-bound target: all its zone records and input
      // stay; the target is kept exactly when the attack reports it alive,
      // and otherwise dropped before selection runs on the zones it left
      ensures old(attacking && currentTarget.Some?) && obs.now - old(lastAttackTime) >= postClickDelay
              && SameClass(obs.dets, old(currentTarget.value.className)) != [] ==>
                var t := Rebind(old(currentTarget.value), SameClass(obs.dets, old(currentTarget.value.className)));
                var dead := old(deadZones) + RecordOn(bbox, obs.capture, t, obs.now, Looted);
                var prohibited := old(prohibitedZones) + RecordOn(bbox, obs.capture, t, obs.now, Forbidden);
                && input.trace == old(input.trace)
                   + AttackEvents(bbox, obs.capture, t, obs.cursorX, obs.cursorY, input.screenWidth, input.screenHeight)
                && (phase == KeptEngaging <==> Survives(bbox, obs.capture, t))
                && (Survives(bbox, obs.capture, t) ==>
                      currentTarget == Some(t) && attackCount == old(attackCount) + 1 && lastAttackTime == obs.now
                      && targetCursorState == Some(Vote(bbox, obs.capture, t.cx, t.cy)) && targetTrackingActive
                      && deadZones == dead && prohibitedZones == prohibited)
                && (!Survives(bbox, obs.capture, t) ==>
                      (phase.Acquired? || phase == NoTarget)
                      && attackCount == 0 && targetCursorState.None?
                      && (phase == NoTarget ==>
                            lastAttackTime == (if Swings(bbox, obs.capture, t) then obs.now else old(lastAttackTime)))
                      && deadZones == Purged(dead, obs.dets, classNames, obs.now, deadTimeout)
                      && prohibitedZones == Purged(prohibited, obs.dets, classNames, obs.now, ProhibitedTimeout))
      // a class missing for three post-click delays or more: the target is
      // dropped and selection runs on the zones as they were
      ensures old(attacking && currentTarget.Some?) && obs.now - old(lastAttackTime) >= postClickDelay
              && SameClass(obs.dets, old(currentTarget.value.className)) == []
              && obs.now - old(lastAttackTime) >= 3.0 * postClickDelay ==>
                (phase.Acquired? || phase == NoTarget) && input.trace == old(input.trace)
                && attackCount == 0 && targetCursorState.None?
                && (phase == NoTarget ==> lastAttackTime == old(lastAttackTime))
                && deadZones == Purged(old(deadZones), obs.dets, classNames, obs.now, deadTimeout)
                && prohibitedZones == Purged(old(prohibitedZones), obs.dets, classNames, obs.now, ProhibitedTimeout)
      // with no committed target selection runs at once
      ensures !old(attacking && currentTarget.Some?) ==>
                deadZones == Purged(old(deadZones), obs.dets, classNames, obs.now, deadTimeout)
                && prohibitedZones == Purged(old(prohibitedZones), obs.dets, classNames, obs.now, ProhibitedTimeout)
                && (!phase.Explored? ==> input.trace == old(input.trace))
                && targetCursorState == old(targetCursorState)
                && (!phase.Acquired? ==>
                      attackCount == old(attackCount) && lastAttackTime == old(lastAttackTime)
                      && targetTrackingActive == old(targetTrackingActive))
      ensures phase == KeptEngaging ==> engaged.Some? && currentTarget == engaged && attacking
      ensures phase == Throttled || phase == KeptEngaging || phase == Waiting ==> old(attacking && currentTarget.Some?)
      // selection: the first detection of an allowed class outside every zone
      ensures phase.Acquired? ==>
                currentTarget == Some(phase.target) && attacking && attackCount == 0 && targetTrackingActive
                && lastAttackTime == obs.now - postClickDelay
                && currentTarget == FirstEligible(obs.dets, classNames, deadZones, prohibitedZones)
      ensures phase == NoTarget ==>
                currentTarget.None? && attacking && !targetTrackingActive
                && FirstEligible(obs.dets, classNames, deadZones, prohibitedZones).None?
      // exploration when not engaging and nothing is eligible
      ensures !old(attacking) ==> phase.Acquired? || phase.Explored?
      ensures phase.Explored? ==>
                !old(attacking) && !attacking && currentTarget.None?
                && FirstEligible(obs.dets, classNames, deadZones, prohibitedZones).None?
                && phase.steer == Obs.DetectObstacleDirection(obs.frame, obstacleThreshold)
                && input.trace == old(input.trace) + RotateCameraEvents(RotateDx, RotateSteps) + SteerEvents(phase.steer)
    {
      engaged := None;
      if attacking && currentTarget.Some? {
        var step;
        step, engaged := EngageCurrent(obs);
        if step.Some? {
          return step.value, engaged;
        }
      }
      phase := SelectOrExplore(obs);
    }

    /** The main loop over a finite run of observations. */
    method Run(observations: seq<Observation>) returns (passes: nat)
      requires Valid()
      requires forall k :: 0 <= k < |observations| ==> Obs.Rectangular(observations[k].frame)
      modifies this, input
      ensures Valid() && running
      ensures passes == |observations|
    {
      running := true;
      passes := 0;
      var k := 0;
      while running && k < |observations|
        invariant 0 <= k <= |observations|
        invariant passes == k
        invariant Valid() && running
      {
        var _, _ := Iterate(observations[k]);
        passes := passes + 1;
        k := k + 1;
      }
    }

    /** `stop`: end the loop, stop engaging, drop the target and stop
        cursor tracking; safe in every state. */
    method Stop()
      modifies this`running, this`attacking, this`currentTarget, this`targetTrackingActive
      ensures old(input.Valid()) ==> Valid()
      ensures !running && !attacking && currentTarget.None? && !targetTrackingActive
    {
      running := false;
      attacking := false;
      currentTarget := None;
      targetTrackingActive := false;
    }
  }
}

=== FILE: cursor_detection.dfy ===
/**
 The cursor-state classifier: the search area around a point, clipped to the
 frame with Python's slicing rules; the decision rule over the colour
 detectors' readings of that area; and the majority count used to report a
 classification with a confidence.
 */
module CursorDetection {

  /** The four labels the classifier returns. */
  datatype CursorState = RedSword | Hand | Prohibited | NoCursor

  /** A block of frame pixels: rows [top, bottom) and columns [left, right). */
  datatype Region = Region(top: int, bottom: int, left: int, right: int)

  /** What the three colour detectors report about a region: whether a
      prohibition sign is present, and the sword and hand pixel counts. */
  datatype Readings = Readings(prohibitedSign: bool, swordPixels: nat, handPixels: nat)

  /** The colour detectors applied to one captured frame. How they segment
      colours is not modelled; only their readings are. */
  type Sensor = Region -> Readings

  const SwordThreshold: nat := 35
  const HandThreshold: nat := 25
  const DefaultSearchRadius: int := 50

  /** A Python slice index normalised against a dimension of length `n`
      (step 1): negative indices count from the end, then the index is
      clipped to [0, n]. */
  function SliceIndex(i: int, n: nat): (j: int)
    ensures 0 <= j <= n
    ensures 0 <= i <= n ==> j == i
    ensures i < 0 && i + n >= 0 ==> j == i + n
    ensures i + n < 0 ==> j == 0
    ensures i > n ==> j == n
  {
    if i < 0 then (if i + n < 0 then 0 else i + n)
    else if i > n then n
    else i
  }

  /** `frame[max(0, ty-r):min(h, ty+r), max(0, tx-r):min(w, tx+r)]` as the
      block of pixels it denotes. */
  function SearchArea(w: nat, h: nat, tx: int, ty: int, radius: int): (roi: Region)
    ensures 0 <= roi.top <= h && 0 <= roi.bottom <= h
    ensures 0 <= roi.left <= w && 0 <= roi.right <= w
  {
    Region(SliceIndex(Max(0, ty - radius), h), SliceIndex(Min(h, ty + radius), h),
           SliceIndex(Max(0, tx - radius), w), SliceIndex(Min(w, tx + radius), w))
  }

  function Max(a: int, b: int): int { if a >= b then a else b }
  function Min(a: int, b: int): int { if a <= b then a else b }

  predicate IsEmpty(roi: Region)
  {
    roi.bottom <= roi.top || roi.right <= roi.left
  }

  /** For a point inside the frame and a positive radius, the search area is
      the square around the point clipped to the frame, and it is never
      empty: the slicing never wraps. */
  lemma SearchAreaInsideFrame(w: nat, h: nat, tx: int, ty: int, radius: int)
    requires 0 <= tx < w && 0 <= ty < h && radius > 0
    ensures SearchArea(w, h, tx, ty, radius)
            == Region(Max(0, ty - radius), Min(h, ty + radius), Max(0, tx - radius), Min(w, tx + radius))
    ensures !IsEmpty(SearchArea(w, h, tx, ty, radius))
    ensures var roi := SearchArea(w, h, tx, ty, radius);
            roi.top <= ty < roi.bottom && roi.left <= tx < roi.right
  {
  }

  /** A point left of the frame by more than the radius gets columns
      [0, tx + radius + w): the negative slice end counts from the right
      edge instead of giving an empty block. With w = 200 and radius 50,
      tx = -60 examines columns [0, 190). The block is non-empty exactly
      when the wrapped end is still inside the frame. */
  lemma SearchAreaWrapsForOffFramePoint(w: nat, h: nat, tx: int, ty: int, radius: int)
    requires 0 <= ty < h && radius > 0
    requires tx + radius < 0
    ensures var roi := SearchArea(w, h, tx, ty, radius);
            roi.left == 0 && roi.right == Max(0, tx + radius + w)
            && roi.top == Max(0, ty - radius) && roi.bottom == Min(h, ty + radius)
    ensures !IsEmpty(SearchArea(w, h, tx, ty, radius)) <==> tx + radius + w > 0
  {
  }

  /** The decision rule once the region is non-empty. The source compares
      `sword > hand * 0.6` in floating point; when 3*hand/5 is an integer it
      is computed exactly and otherwise it is at least 1/5 away from any
      integer, so that float comparison agrees with the exact one used
      here. */
  function Decide(r: Readings): (s: CursorState)
    ensures s == Prohibited <==> r.prohibitedSign
    ensures s == NoCursor <==>
              !r.prohibitedSign && r.swordPixels <= SwordThreshold && r.handPixels <= HandThreshold
    ensures s == RedSword <==>
              !r.prohibitedSign && r.swordPixels > SwordThreshold
              && (r.handPixels <= HandThreshold || 5 * r.swordPixels > 3 * r.handPixels)
    ensures s == Hand <==>
              !r.prohibitedSign && r.handPixels > HandThreshold
              && (r.swordPixels <= SwordThreshold || 5 * r.swordPixels <= 3 * r.handPixels)
  {
    if r.prohibitedSign then Prohibited
    else if r.swordPixels > SwordThreshold then
      if r.handPixels > HandThreshold then
        if r.swordPixels as real > r.handPixels as real * 0.6 then RedSword else Hand
      else RedSword
    else if r.handPixels > HandThreshold then Hand
    else NoCursor
  }

  /** `detect_cursor_state(frame, tx, ty, radius)` on a `w` by `h` frame
      whose colour detectors are `sense`. */
  function DetectCursorState(w: nat, h: nat, tx: int, ty: int, radius: int, sense: Sensor): (s: CursorState)
    ensures IsEmpty(SearchArea(w, h, tx, ty, radius)) ==> s == NoCursor
    ensures !IsEmpty(SearchArea(w, h, tx, ty, radius)) ==> s == Decide(sense(SearchArea(w, h, tx, ty, radius)))
  {
    var roi := SearchArea(w, h, tx, ty, radius);
    if IsEmpty(roi) then NoCursor else Decide(sense(roi))
  }

  /** A point inside the frame is classified by the readings of the square
      around it, and a prohibition sign there wins over any pixel counts. */
  lemma ClassifyInsideFrame(w: nat, h: nat, tx: int, ty: int, radius: int, sense: Sensor)
    requires 0 <= tx < w && 0 <= ty < h && radius > 0
    ensures var roi := Region(Max(0, ty - radius), Min(h, ty + radius), Max(0, tx - radius), Min(w, tx + radius));
            DetectCursorState(w, h, tx, ty, radius, sense) == Decide(sense(roi))
            && (sense(roi).prohibitedSign ==> DetectCursorState(w, h, tx, ty, radius, sense) == Prohibited)
  {
    SearchAreaInsideFrame(w, h, tx, ty, radius);
  }

  /** How often `x` occurs in `s`. */
  function Count<T(==)>(s: seq<T>, x: T): nat
  {
    multiset(s)[x]
  }

  /** The scan behind `Counter(s).most_common(1)[0]`: keys are kept in
      first-occurrence order and the first key of maximal count wins, which
      is the element at the first index whose count is maximal. `best` is
      that index for the prefix s[..i]. */
  function MostCommonFrom<T(==)>(s: seq<T>, i: nat, best: nat): (k: nat)
    requires best < i <= |s|
    requires forall j :: 0 <= j < i ==> Count(s, s[j]) <= Count(s, s[best])
    requires forall j :: 0 <= j < best ==> Count(s, s[j]) < Count(s, s[best])
    ensures best <= k < |s|
    ensures forall j :: 0 <= j < |s| ==> Count(s, s[j]) <= Count(s, s[k])
    ensures forall j :: 0 <= j < k ==> Count(s, s[j]) < Count(s, s[k])
    decreases |s| - i
  {
    if i == |s| then best
    else if Count(s, s[i]) > Count(s, s[best]) then MostCommonFrom(s, i + 1, i)
    else MostCommonFrom(s, i + 1, best)
  }

  /** Index of the most common element: its count is maximal and every
      earlier element occurs strictly less often. */
  function MostCommonIndex<T(==)>(s: seq<T>): (k: nat)
    requires |s| >= 1
    ensures k < |s|
    ensures forall j :: 0 <= j < |s| ==> Count(s, s[j]) <= Count(s, s[k])
    ensures forall j :: 0 <= j < k ==> Count(s, s[j]) < Count(s, s[k])
  {
    MostCommonFrom(s, 1, 0)
  }

  function MostCommon<T(==)>(s: seq<T>): T
    requires |s| >= 1
  {
    s[MostCommonIndex(s)]
  }

  /** The majority of three samples: a label seen at least twice wins, and
      when all three differ the first sample wins. */
  lemma {:induction false} MostCommonOfThree<T>(a: T, b: T, c: T)
    ensures MostCommon([a, b, c]) == if a == b || a == c then a else if b == c then b else a
  {
    var s := [a, b, c];
    var k := MostCommonIndex(s);
    assert s[0] == a && s[1] == b && s[2] == c;
    if a == b || a == c {
      assert Count(s, a) >= 2;
    } else if b == c {
      assert Count(s, b) == 2 && Count(s, a) == 1;
    } else {
      assert Count(s, a) == 1 && Count(s, b) == 1 && Count(s, c) == 1;
    }
  }

  /** When every sample is the same label, that label wins with every
      sample counted for it. */
  lemma {:induction false} MostCommonOfConstant<T>(s: seq<T>, x: T)
    requires |s| >= 1
    requires forall j :: 0 <= j < |s| ==> s[j] == x
    ensures MostCommon(s) == x
    ensures Count(s, x) == |s|
    ensures Count(s, x) as real / |s| as real == 1.0
  {
    CountOfConstant(s, x);
  }

  lemma CountOfConstant<T>(s: seq<T>, x: T)
    requires forall j :: 0 <= j < |s| ==> s[j] == x
    ensures Count(s, x) == |s|
  {
    if s != [] {
      CountOfConstant(s[1..], x);
      assert s == [s[0]] + s[1..];
    }
  }

  /** `get_cursor_confidence`: classify the same frame `numSamples` times,
      pausing between samples, and report the most common label together
      with the fraction of samples that agree with it. Because every sample
      reads the same frame, they all agree. The pauses are counted, not
      timed. */
  method GetCursorConfidence(w: nat, h: nat, tx: int, ty: int, radius: int, numSamples: int, sense: Sensor)
    returns (state: CursorState, confidence: real, samples: seq<CursorState>, pauses: nat)
    requires numSamples >= 1
    ensures |samples| == numSamples
    ensures forall j :: 0 <= j < |samples| ==> samples[j] == DetectCursorState(w, h, tx, ty, radius, sense)
    ensures state == MostCommon(samples)
    ensures confidence == Count(samples, state) as real / numSamples as real
    ensures state == DetectCursorState(w, h, tx, ty, radius, sense)
    ensures confidence == 1.0
    ensures pauses == numSamples - 1
  {
    ghost var reading := DetectCursorState(w, h, tx, ty, radius, sense);
    samples := [];
    pauses := 0;
    var i := 0;
    while i < numSamples
      invariant 0 <= i <= numSamples
      invariant |samples| == i
      invariant forall j :: 0 <= j < i ==> samples[j] == reading
      invariant pauses == if i < numSamples then i else numSamples - 1
    {
      var s := DetectCursorState(w, h, tx, ty, radius, sense);
      samples := samples + [s];
      if i < numSamples - 1 {
        pauses := pauses + 1;
      }
      i := i + 1;
    }
    var k := MostCommonIndex(samples);
    state := samples[k];
    MostCommonOfConstant(samples, reading);
    var n := Count(samples, state);
    assert n == numSamples;
    confidence := n as real / numSamples as real;
  }
}

=== FILE: input_controller.dfy ===
/**
 Synthetic input events as the Windows `SendInput` interface receives them:
 the flag words of each keyboard and mouse event, the clamp-and-scale of an
 absolute mouse move into the 0..65535 range, and an injector object that
 appends every event it emits to a trace.
 */
module InputController {

  /** The `dwFlags` word of a KEYBDINPUT or MOUSEINPUT record (a DWORD). */
  type Flags = bv32

  const KeyUpFlag: Flags := 0x0002
  const ScanCodeFlag: Flags := 0x0008
  const MoveFlag: Flags := 0x0001
  const AbsoluteFlag: Flags := 0x8000
  const LeftDownFlag: Flags := 0x0002
  const LeftUpFlag: Flags := 0x0004
  const RightDownFlag: Flags := 0x0008
  const RightUpFlag: Flags := 0x0010

  /** Largest coordinate of the normalised absolute mouse coordinate space. */
  const AbsoluteMax: int := 65535

  /** One emitted input record. The scan code a key event carries is
      derived from `vk` by the operating system and is not modelled. */
  datatype Event =
    | KeyInput(vk: int, flags: Flags)
    | MouseInput(dx: int, dy: int, flags: Flags)

  /** Flags of a key press: the key is identified by scan code. */
  function KeyDownFlags(): (f: Flags)
    ensures f & ScanCodeFlag != 0 && f & KeyUpFlag == 0
    ensures f == 0x0008
  {
    ScanCodeFlag
  }

  /** Flags of a key release: scan code and key-up together. */
  function KeyUpFlags(): (f: Flags)
    ensures f & ScanCodeFlag != 0 && f & KeyUpFlag != 0
    ensures f == 0x000A
  {
    ScanCodeFlag | KeyUpFlag
  }

  /** Flags of an absolute mouse move. */
  function AbsoluteMoveFlags(): (f: Flags)
    ensures f & MoveFlag != 0 && f & AbsoluteFlag != 0
    ensures f == 0x8001
  {
    MoveFlag | AbsoluteFlag
  }

  /** Button-down flag: the string "left" selects the left button, every
      other string the right one. */
  function ButtonDownFlags(btn: string): (f: Flags)
    ensures f == LeftDownFlag || f == RightDownFlag
    ensures f == LeftDownFlag <==> btn == "left"
  {
    if btn == "left" then LeftDownFlag else RightDownFlag
  }

  /** Button-up flag, with the same choice of button as ButtonDownFlags. */
  function ButtonUpFlags(btn: string): (f: Flags)
    ensures f == LeftUpFlag || f == RightUpFlag
    ensures f == LeftUpFlag <==> btn == "left"
  {
    if btn == "left" then LeftUpFlag else RightUpFlag
  }

  /** The two events of a click: press, then release of the same button. */
  function ClickEvents(btn: string): (es: seq<Event>)
    ensures |es| == 2
    ensures es[0] == MouseInput(0, 0, ButtonDownFlags(btn))
    ensures es[1] == MouseInput(0, 0, ButtonUpFlags(btn))
  {
    [MouseInput(0, 0, ButtonDownFlags(btn)), MouseInput(0, 0, ButtonUpFlags(btn))]
  }

  /** `max(0, min(v, size - 1))`: a coordinate clamped onto the screen. */
  function Clamp(v: int, size: int): (c: int)
    requires size >= 1
    ensures 0 <= c <= size - 1
    ensures 0 <= v <= size - 1 ==> c == v
    ensures v < 0 ==> c == 0
    ensures v > size - 1 ==> c == size - 1
  {
    if v < 0 then 0 else if v > size - 1 then size - 1 else v
  }

  /** `int(c * 65535 / (size - 1))` for a clamped coordinate. The true
      quotient is either an integer or at least 1/(size-1) below the next
      one, far more than a rounding error of the float division, so the
      truncated float quotient equals the integer floor quotient. */
  function Scale(c: int, size: int): (a: int)
    requires size >= 2 && 0 <= c <= size - 1
    ensures 0 <= a <= AbsoluteMax
    ensures a * (size - 1) <= c * AbsoluteMax < (a + 1) * (size - 1)
  {
    ScaleBound(c, size);
    c * AbsoluteMax / (size - 1)
  }

  lemma ScaleBound(c: int, size: int)
    requires size >= 2 && 0 <= c <= size - 1
    ensures 0 <= c * AbsoluteMax / (size - 1) <= AbsoluteMax
  {
    var d := size - 1;
    assert c * AbsoluteMax <= d * AbsoluteMax;
    assert d * AbsoluteMax / d == AbsoluteMax;
    DivMonotone(c * AbsoluteMax, d * AbsoluteMax, d);
  }

  lemma DivMonotone(n: int, m: int, d: int)
    requires 0 <= n <= m && d > 0
    ensures 0 <= n / d <= m / d
  {
    var q, r := n / d, m / d;
    assert n == q * d + n % d;
    assert m == r * d + m % d;
    if q > r {
      MulMonotone(r + 1, q, d);
    }
  }

  lemma MulMonotone(a: int, b: int, d: int)
    requires a <= b && d > 0
    ensures a * d <= b * d
  {}

  lemma DivExact(k: int, d: int)
    requires d > 0
    ensures (d * k) / d == k
  {
    var q := (d * k) / d;
    assert d * k == q * d + (d * k) % d;
    if q < k {
      MulMonotone(q + 1, k, d);
    } else if q > k {
      MulMonotone(k + 1, q, d);
    }
  }

  /** The absolute coordinate `move_mouse` sends for screen coordinate `v`. */
  function ToAbsolute(v: int, size: int): (a: int)
    requires size >= 2
    ensures 0 <= a <= AbsoluteMax
    ensures v <= 0 ==> a == 0
    ensures v >= size - 1 ==> a == AbsoluteMax
  {
    DivExact(AbsoluteMax, size - 1);
    Scale(Clamp(v, size), size)
  }

  /** A larger screen coordinate never maps to a smaller absolute one. */
  lemma ToAbsoluteMonotone(v1: int, v2: int, size: int)
    requires size >= 2 && v1 <= v2
    ensures ToAbsolute(v1, size) <= ToAbsolute(v2, size)
  {
    var c1, c2 := Clamp(v1, size), Clamp(v2, size);
    assert c1 <= c2;
    assert c1 * AbsoluteMax <= c2 * AbsoluteMax;
    DivMonotone(c1 * AbsoluteMax, c2 * AbsoluteMax, size - 1);
  }

  /** The record `move_mouse(x, y)` sends. */
  function MoveMouseEvent(x: int, y: int, screenWidth: int, screenHeight: int): (e: Event)
    requires screenWidth >= 2 && screenHeight >= 2
    ensures e.MouseInput? && e.flags == 0x8001
    ensures 0 <= e.dx <= AbsoluteMax && 0 <= e.dy <= AbsoluteMax
  {
    MouseInput(ToAbsolute(x, screenWidth), ToAbsolute(y, screenHeight), AbsoluteMoveFlags())
  }

  /** Python's `int(r)`: truncation toward zero. */
  function Truncate(r: real): (n: int)
    ensures r >= 0.0 ==> n as real <= r < n as real + 1.0
    ensures r < 0.0 ==> n as real - 1.0 < r <= n as real
  {
    if r >= 0.0 then r.Floor else -((-r).Floor)
  }

  /** The `k`-th of `steps` interpolated coordinates from `p` toward `t`:
      `int(p + (t - p) / steps * k)`, with the quotient taken exactly. */
  function Interpolate(p: int, t: int, k: int, steps: int): (c: int)
    requires steps >= 1
    ensures k == 0 ==> c == p
    ensures 0 <= k <= steps && p <= t ==> p <= c <= t
    ensures 0 <= k <= steps && t <= p ==> t <= c <= p
  {
    InterpolateBetween(p, t, k, steps);
    Truncate(p as real + (t - p) as real / steps as real * k as real)
  }

  /** Every point of the glide lies between its two ends. */
  lemma InterpolateBetween(p: int, t: int, k: int, steps: int)
    requires steps >= 1
    ensures var x := p as real + (t - p) as real / steps as real * k as real;
            && (k == 0 ==> x == p as real)
            && (0 <= k <= steps && p <= t ==> p as real <= x <= t as real)
            && (0 <= k <= steps && t <= p ==> t as real <= x <= p as real)
  {
    var q := (t - p) as real / steps as real;
    assert q * steps as real == (t - p) as real;
    if 0 <= k <= steps {
      if p <= t {
        assert 0.0 <= q * k as real <= q * steps as real;
      } else {
        assert q * steps as real <= q * k as real <= 0.0;
      }
    }
  }

  /** The last interpolated point is the destination itself. */
  lemma InterpolateArrives(p: int, t: int, steps: int)
    requires steps >= 1
    ensures Interpolate(p, t, steps, steps) == t
  {
    var q := (t - p) as real / steps as real;
    assert q * steps as real == (t - p) as real;
    assert p as real + q * steps as real == t as real;
  }

  /** The events `smooth_move(tx, ty, steps)` emits when the mouse is at
      `(px, py)`: one absolute move per step. */
  function SmoothMoveEvents(px: int, py: int, tx: int, ty: int, steps: int,
                            screenWidth: int, screenHeight: int): (es: seq<Event>)
    requires steps >= 1 && screenWidth >= 2 && screenHeight >= 2
    ensures |es| == steps
    ensures forall i :: 0 <= i < steps ==> es[i].MouseInput? && es[i].flags == 0x8001
  {
    seq(steps, i requires 0 <= i < steps =>
      MoveMouseEvent(Interpolate(px, tx, i + 1, steps), Interpolate(py, ty, i + 1, steps),
                     screenWidth, screenHeight))
  }

  /** A smooth move ends with exactly the move `move_mouse(tx, ty)` sends. */
  lemma SmoothMoveEndsAtTarget(px: int, py: int, tx: int, ty: int, steps: int,
                               screenWidth: int, screenHeight: int)
    requires steps >= 1 && screenWidth >= 2 && screenHeight >= 2
    ensures SmoothMoveEvents(px, py, tx, ty, steps, screenWidth, screenHeight)[steps - 1]
            == MoveMouseEvent(tx, ty, screenWidth, screenHeight)
  {
    InterpolateArrives(px, tx, steps);
    InterpolateArrives(py, ty, steps);
  }

  /** The injector: it sends each record immediately, so its whole
      observable effect is the sequence of records sent so far. */
  class Injector {
    const screenWidth: int
    const screenHeight: int
    var trace: seq<Event>

    ghost predicate Valid()
      reads this
    {
      screenWidth >= 2 && screenHeight >= 2
    }

    constructor (screenWidth: int, screenHeight: int)
      requires screenWidth >= 2 && screenHeight >= 2
      ensures Valid() && trace == []
      ensures this.screenWidth == screenWidth && this.screenHeight == screenHeight
    {
      this.screenWidth := screenWidth;
      this.screenHeight := screenHeight;
      trace := [];
    }

    method PressKey(vk: int)
      modifies this
      ensures trace == old(trace) + [KeyInput(vk, KeyDownFlags())]
    {
      trace := trace + [KeyInput(vk, KeyDownFlags())];
    }

    method ReleaseKey(vk: int)
      modifies this
      ensures trace == old(trace) + [KeyInput(vk, KeyUpFlags())]
    {
      trace := trace + [KeyInput(vk, KeyUpFlags())];
    }

    method PressMouse(btn: string)
      modifies this
      ensures trace == old(trace) + [MouseInput(0, 0, ButtonDownFlags(btn))]
    {
      trace := trace + [MouseInput(0, 0, ButtonDownFlags(btn))];
    }

    method ReleaseMouse(btn: string)
      modifies this
      ensures trace == old(trace) + [MouseInput(0, 0, ButtonUpFlags(btn))]
    {
      trace := trace + [MouseInput(0, 0, ButtonUpFlags(btn))];
    }

    method MoveMouse(x: int, y: int)
      requires Valid()
      modifies this
      ensures trace == old(trace) + [MoveMouseEvent(x, y, screenWidth, screenHeight)]
    {
      trace := trace + [MoveMouseEvent(x, y, screenWidth, screenHeight)];
    }

    method MoveMouseRel(dx: int, dy: int)
      modifies this
      ensures trace == old(trace) + [MouseInput(dx, dy, MoveFlag)]
    {
      trace := trace + [MouseInput(dx, dy, MoveFlag)];
    }

    /** Press, pause, release: the pause is not modelled. */
    method ClickMouse(btn: string)
      modifies this
      ensures trace == old(trace) + ClickEvents(btn)
    {
      PressMouse(btn);
      ReleaseMouse(btn);
    }

    /** `(px, py)` is the mouse position the operating system reports
        when the move starts. */
    method SmoothMove(px: int, py: int, tx: int, ty: int, steps: int)
      requires Valid() && steps >= 1
      modifies this
      ensures trace == old(trace) + SmoothMoveEvents(px, py, tx, ty, steps, screenWidth, screenHeight)
    {
      var i := 0;
      while i < steps
        invariant 0 <= i <= steps
        invariant trace == old(trace) + SmoothMoveEvents(px, py, tx, ty, steps, screenWidth, screenHeight)[..i]
      {
        MoveMouse(Interpolate(px, tx, i + 1, steps), Interpolate(py, ty, i + 1, steps));
        i := i + 1;
      }
    }
  }
}

=== FILE: obstacles.dfy ===
/**
 The exploration steering rule: look at the bottom strip of the frame, split
 it into left, middle and right thirds, and if the middle is darker than the
 obstacle threshold turn toward the brighter side.
 */
module Obstacles {
  import opened Wrappers

  /** One pixel: its three colour channels. */
  datatype Pixel = Pixel(c0: nat, c1: nat, c2: nat)

  /** A frame as its rows of pixels, top row first. */
  type Frame = seq<seq<Pixel>>

  datatype Steer = SteerLeft | SteerRight

  /** Number of bottom rows inspected. */
  const StripRows: nat := 10

  function Width(f: Frame): nat
  {
    if |f| == 0 then 0 else |f[0]|
  }

  /** Every row has the same number of pixels, as in an image array. */
  predicate Rectangular(f: Frame)
  {
    forall i :: 0 <= i < |f| ==> |f[i]| == Width(f)
  }

  function PixelSum(p: Pixel): nat
  {
    p.c0 + p.c1 + p.c2
  }

  /** Sum of every channel of the pixels row[lo..hi). */
  function RowSum(row: seq<Pixel>, lo: nat, hi: nat): nat
    requires lo <= hi <= |row|
    decreases hi - lo
  {
    if lo == hi then 0 else RowSum(row, lo, hi - 1) + PixelSum(row[hi - 1])
  }

  /** Sum of every channel of columns [lo, hi) over all `rows`. */
  function BlockSum(rows: seq<seq<Pixel>>, lo: nat, hi: nat): nat
    requires lo <= hi
    requires forall i :: 0 <= i < |rows| ==> hi <= |rows[i]|
  {
    if rows == [] then 0 else BlockSum(rows[1..], lo, hi) + RowSum(rows[0], lo, hi)
  }

  /** The mean of all channel values of columns [lo, hi) of `rows`:
      `rows[:, lo:hi].mean()` for a non-empty block. */
  function Mean(rows: seq<seq<Pixel>>, lo: nat, hi: nat): (m: real)
    requires lo < hi && |rows| > 0
    requires forall i :: 0 <= i < |rows| ==> hi <= |rows[i]|
    ensures m >= 0.0
    ensures m * (3 * |rows| * (hi - lo)) as real == BlockSum(rows, lo, hi) as real
  {
    PositiveProduct(3 * |rows|, hi - lo);
    Quotient(BlockSum(rows, lo, hi), 3 * |rows| * (hi - lo))
  }

  /** `a / n` as a real. */
  function Quotient(a: nat, n: nat): (q: real)
    requires n > 0
    ensures q >= 0.0
    ensures q * n as real == a as real
  {
    a as real / n as real
  }

  lemma PositiveProduct(a: int, b: int)
    requires a > 0 && b > 0
    ensures a * b > 0
  {}

  /** The bottom StripRows rows. */
  function BottomStrip(f: Frame): (seg: Frame)
    requires |f| >= StripRows
    ensures |seg| == StripRows
    ensures forall i :: 0 <= i < StripRows ==> seg[i] == f[|f| - StripRows + i]
  {
    f[|f| - StripRows..]
  }

  /** `detect_obstacle_direction(frame)` against the configured threshold.
      With fewer than three columns the middle third is empty; its mean is
      then NaN, which is never below the threshold, so the result is None. */
  function DetectObstacleDirection(f: Frame, threshold: real): (d: Option<Steer>)
    requires Rectangular(f)
    ensures |f| < StripRows ==> d == None
    ensures Width(f) < 3 ==> d == None
    ensures d != None ==> |f| >= StripRows && Width(f) >= 3
  {
    if |f| < StripRows then None
    else
      var seg := BottomStrip(f);
      var w := Width(f);
      var third := w / 3;
      if third == 0 then None
      else
        var left := Mean(seg, 0, third);
        var mid := Mean(seg, third, 2 * third);
        var right := Mean(seg, 2 * third, w);
        if mid < threshold then Some(if left > right then SteerLeft else SteerRight) else None
  }

  /** The steering rule in full, for a frame with the bottom strip and at
      least three columns: a middle third darker than the threshold steers
      toward the brighter of the outer thirds, and toward the right when
      they are equally bright; otherwise the frame yields None. Brightness
      is compared through channel sums cross-multiplied by the strip
      widths. */
  lemma DarkMiddleSteersToBrighterSide(f: Frame, threshold: real)
    requires Rectangular(f) && |f| >= StripRows && Width(f) >= 3
    ensures var seg := BottomStrip(f);
            var w := Width(f);
            var third := w / 3;
            var dark := Mean(seg, third, 2 * third) < threshold;
            var leftWins := BlockSum(seg, 0, third) * (w - 2 * third) > BlockSum(seg, 2 * third, w) * third;
            && (DetectObstacleDirection(f, threshold) == Some(SteerLeft) <==> dark && leftWins)
            && (DetectObstacleDirection(f, threshold) == Some(SteerRight) <==> dark && !leftWins)
            && (DetectObstacleDirection(f, threshold) == None <==> !dark)
  {
    var seg := BottomStrip(f);
    var w := Width(f);
    var third := w / 3;
    assert 0 < third < 2 * third < w;
    assert forall i :: 0 <= i < |seg| ==> |seg[i]| == w;
    MeanComparedBySums(seg, 0, third, 2 * third, w);
  }

  /** Comparing the strip means is comparing their channel sums
      cross-multiplied by the strip widths (every strip has StripRows rows). */
  lemma {:induction false} MeanComparedBySums(rows: seq<seq<Pixel>>, lo1: nat, hi1: nat, lo2: nat, hi2: nat)
    requires lo1 < hi1 && lo2 < hi2 && |rows| > 0
    requires forall i :: 0 <= i < |rows| ==> hi1 <= |rows[i]| && hi2 <= |rows[i]|
    ensures Mean(rows, lo1, hi1) > Mean(rows, lo2, hi2)
            <==> BlockSum(rows, lo1, hi1) * (hi2 - lo2) > BlockSum(rows, lo2, hi2) * (hi1 - lo1)
  {
    CompareFractions(BlockSum(rows, lo1, hi1), BlockSum(rows, lo2, hi2), hi1 - lo1, hi2 - lo2, 3 * |rows|);
  }

  lemma CompareFractions(a1: nat, a2: nat, w1: nat, w2: nat, c: nat)
    requires w1 > 0 && w2 > 0 && c > 0
    ensures a1 as real / (c * w1) as real > a2 as real / (c * w2) as real <==> a1 * w2 > a2 * w1
  {
    IntProductAsReal(c, w1);
    IntProductAsReal(c, w2);
    CrossMultiply(a1 as real, a2 as real, w1 as real, w2 as real, c as real);
    IntProductAsReal(a1, w2);
    IntProductAsReal(a2, w1);
  }

  lemma IntProductAsReal(a: int, b: int)
    ensures (a * b) as real == a as real * b as real
  {}

  lemma CrossMultiply(s1: real, s2: real, d1: real, d2: real, c: real)
    requires d1 > 0.0 && d2 > 0.0 && c > 0.0
    ensures s1 / (c * d1) > s2 / (c * d2) <==> s1 * d2 > s2 * d1
  {
    DivCompare(s1, c * d1, s2, c * d2);
    assert s1 * (c * d2) == c * (s1 * d2);
    assert s2 * (c * d1) == c * (s2 * d1);
  }

  lemma DivCompare(a: real, x: real, b: real, y: real)
    requires x > 0.0 && y > 0.0
    ensures a / x > b / y <==> a * y > b * x
  {
    assert a / x * (x * y) == a * y;
    assert b / y * (x * y) == b * x;
  }

  /** A frame of uniform grey level `v`: every strip has mean `v`, so a
      dark uniform frame (v below the threshold) steers right, since equal
      sides go right, and a bright one yields None. */
  lemma {:induction false} UniformFrameSteersRightWhenDark(f: Frame, v: nat, threshold: real)
    requires Rectangular(f) && |f| >= StripRows && Width(f) >= 3
    requires forall i, j :: 0 <= i < |f| && 0 <= j < |f[i]| ==> f[i][j] == Pixel(v, v, v)
    ensures DetectObstacleDirection(f, threshold)
            == if (v as real) < threshold then Some(SteerRight) else None
  {
    var seg := BottomStrip(f);
    var w := Width(f);
    var third := w / 3;
    forall lo: nat, hi: nat | lo < hi <= w
      ensures Mean(seg, lo, hi) == v as real
    {
      UniformBlock(seg, lo, hi, v);
      var n := 3 * |seg| * (hi - lo);
      assert BlockSum(seg, lo, hi) == v * n;
      ScaledFraction(v, n);
    }
    assert Mean(seg, 0, third) == v as real;
    assert Mean(seg, third, 2 * third) == v as real;
    assert Mean(seg, 2 * third, w) == v as real;
  }

  lemma ScaledFraction(v: nat, n: nat)
    requires n > 0
    ensures (v * n) as real / n as real == v as real
  {
    assert (v * n) as real == v as real * n as real;
  }

  lemma {:induction false} UniformRow(row: seq<Pixel>, lo: nat, hi: nat, v: nat)
    requires lo <= hi <= |row|
    requires forall j :: 0 <= j < |row| ==> row[j] == Pixel(v, v, v)
    ensures RowSum(row, lo, hi) == 3 * v * (hi - lo)
    decreases hi - lo
  {
    if lo < hi {
      UniformRow(row, lo, hi - 1, v);
    }
  }

  lemma {:induction false} UniformBlock(rows: seq<seq<Pixel>>, lo: nat, hi: nat, v: nat)
    requires lo <= hi
    requires forall i :: 0 <= i < |rows| ==> hi <= |rows[i]|
    requires forall i, j :: 0 <= i < |rows| && 0 <= j < |rows[i]| ==> rows[i][j] == Pixel(v, v, v)
    ensures BlockSum(rows, lo, hi) == v * (3 * |rows| * (hi - lo))
  {
    if rows != [] {
      UniformBlock(rows[1..], lo, hi, v);
      UniformRow(rows[0], lo, hi, v);
      AddOneRow(v, |rows| - 1, hi - lo);
    }
  }

  lemma AddOneRow(v: nat, n: nat, d: nat)
    ensures v * (3 * (n + 1) * d) == v * (3 * n * d) + 3 * v * d
  {
    assert 3 * (n + 1) * d == 3 * n * d + 3 * d;
  }

  /** Only the bottom strip is inspected: frames of the same width that
      agree on their bottom StripRows rows steer the same way. */
  lemma OnlyBottomStripMatters(f: Frame, g: Frame, threshold: real)
    requires Rectangular(f) && Rectangular(g)
    requires |f| >= StripRows && |g| >= StripRows
    requires BottomStrip(f) == BottomStrip(g)
    ensures DetectObstacleDirection(f, threshold) == DetectObstacleDirection(g, threshold)
  {
    assert f[|f| - 1] == BottomStrip(f)[StripRows - 1] == BottomStrip(g)[StripRows - 1] == g[|g| - 1];
    assert Width(f) == |f[|f| - 1]| == |g[|g| - 1]| == Width(g);
  }
}

=== FILE: wrappers.dfy ===
/** The optional value shared by the modules of this model. */
module Wrappers {

  datatype Option<+T> = None | Some(value: T)
}
